=== FILE: README.md ===
# jkcnsl stream handler, modelled in Dafny

jkcnsl is a console bridge between a host program and the niconico live service. It reads one command per line on standard input and writes response lines on standard output. `G` fetches a page. `L` streams the live comments of a broadcast as XML-like lines (`-<chat ...>`, `-<thread ...>`, `-<x_room ... />`, `-<chat_result status="n" />`). While a stream runs, `+[mail]text` posts a comment and `c` closes the stream.

This project models the deterministic core of that bridge:

- **Escaping** (`escape.dfy`). `HtmlEncodeAmpLtGt` runs four sequential replace passes. They are proved equal to escaping each character on its own. Unescaping recovers the input, every `&` in the output starts a reference, and the output contains no `<`, `>` and, when asked, no `"`. The line-level pass that turns LF and CR into `&#10;`/`&#13;` keeps every response on one line.
- **Response lines** (`lines.dfy`, `responses.dfy`).
  - Every tagged line is an element: a tag, attributes from a fixed list of slots in a fixed order, and a self-closing or text body.
  - Optional slots are left out when the value is null, or zero for the numeric flags.
  - A small reader parses a line back. For `chat`, `thread`, `ping` and `x_room`, reading the rendered line gives back the record it was built from.
- **Clock** (`clock.dfy`).
  - The 31-bit masked tick arithmetic.
  - Which keep-alive, if any, is due before each wait.
- **Posting** (`posting.dfy`).
  - The four ` (a|b|...) ` regular expressions on the mail field, modelled as a leftmost matcher and proved equal to "the first listed space-separated token".
  - The record-separator-to-newline mapping.
  - The local gate.
  - The 32-bit vpos computation.
- **Validation** (`validate.dfy`). The broadcast-id and WebSocket-URL regular expressions, each in matcher form and proved equivalent to a plain description.
- **Command classification** (`commands.dfy`). The first-character dispatch of `Main`, the argument split, and the `G` answer.
- **The session** (`session.dfy`).
  - `GetStreamAsync` as a state machine. Its events are a poll carrying the queued commands, a watch-socket fragment carrying its decoded message, a comment-socket fragment carrying its decoded message, and a fault.
  - Each event yields the next state, the ordered effects (lines printed, messages sent, sockets connected or closed) and the commands left unconsumed.
  - Run-level lemmas:
    - buffers stay below 32768 bytes;
    - at most one keep-alive goes out per pass;
    - the comment room is joined at most once;
    - no post leaves the bridge before a `thread` result has set the server clock.

Supporting modules: `wrappers.dfy` (`Option`), `strings.dfy` (the .NET string operations used: `Replace`, `IndexOf`, `Split`, `Join`, `long.ToString`) and `messages.dfy` (the decoded JSON records as datatypes).

Behaviours of Program.cs that the model reproduces as written:

- **Mail colours.** The colour vocabulary is exactly the 27 names in the pattern at Program.cs:366-368.
- **Several listed tokens.** When the mail field holds several tokens of one vocabulary, the leftmost one wins, because `Regex.Match` returns the leftmost match.
- **Watch-session messages.** The handler acts on `error`, `ping`, `postCommentResult`, `room` and `seat` (Program.cs:458-541). A message of any other type is read and ignored.
- **The server clock.** A comment-room `thread` result sets it, and nothing else does (Program.cs:569-572).
- **The vpos base time.** It is read from `embedded.program.vposBaseTime`. `WatchEmbedded` declares no `program` member, so the base time is an optional input, `Embedded.vposBaseTime`. `None` stands for a missing `program`, which makes every post fail the gate.

## Model

| member | source | states |
|---|---|---|
| Escape.HtmlEncodeAmpLtGt | Program.cs:648-652 | the encoded text contains no `<` and no `>`, and no `"` when `encodeQuot` is set |
| Escape.EncodeIsCharwise | Program.cs:650-651 | the sequential `&`, `<`, `>`, `"` passes equal escaping each character independently |
| Escape.EncodeAppend | Program.cs:650-651 | encoding distributes over concatenation |
| Escape.EncodeRoundTrip | Program.cs:648-652 | unescaping the encoded text gives back the input exactly, with or without `encodeQuot` |
| Escape.EncodeAmpsAreEntities | Program.cs:650 | because `&` is replaced first, every `&` in the output begins `&amp;`, `&lt;`, `&gt;` or `&quot;` |
| Escape.EncodeKeepsQuotes | Program.cs:651 | without `encodeQuot` a double quote in the input survives in the output |
| Escape.EncodePlain | Program.cs:648-652 | text without `&`, `<`, `>` or `"` is returned unchanged |
| Escape.NumberIsPlain | Program.cs:554-557 | a number written by `long.ToString()` needs no escaping and holds no line break |
| Escape.LineSafe | Program.cs:563 | after `.Replace("\n", "&#10;").Replace("\r", "&#13;")` the line contains no LF and no CR |
| Escape.LineSafeOfEncoded | Program.cs:563 | the line pass over encoded text equals the per-character wire escaping of the value |
| Escape.UnescapeWire | Program.cs:563 | the wire escaping of a value, CR and LF included, unescapes back to the value |
| Lines.Render | Program.cs:552-563 | an assembled response line starts with `-<` and holds no LF or CR |
| Lines.RenderIsWire | Program.cs:552-563 | the final CR/LF pass only touches escaped values, since tag and attribute names hold no CR or LF |
| Lines.ParseRender | Program.cs:552-563 | reading a rendered line back gives the element it was rendered from: tag, attributes in order, body |
| Responses.ReadLayout | Program.cs:552-563 | slots written in fixed order, each omitted when it has no value, read back positionally as the same values |
| Responses.LayoutPresence | Program.cs:553-562 | a slot's attribute appears in the line exactly when the slot has a value |
| Responses.ReadNumberFlag | Program.cs:554-562 | numbers always written, and flags written only when non-zero, read back as the same integers |
| Responses.ChatRoundTrip | Program.cs:552-563 | a `chat` line is one line that reads back as the comment record, a null content as empty text |
| Responses.ChatOptionalAttrs | Program.cs:553-562 | `thread`, `mail`, `user_id` appear iff present; `yourpost`, `premium`, `anonymity` iff non-zero |
| Responses.ThreadRoundTrip | Program.cs:573-579 | a `thread` line is one line that reads back as the thread result |
| Responses.PingRoundTrip | Program.cs:567 | a `ping` line is one line that reads back as the ping content, null as empty |
| Responses.RoomRoundTrip | Program.cs:495-500 | an `x_room` line reads back as the room's ids and the page user's id, nickname and login flag |
| Responses.ChatResultText | Program.cs:398 | `chat_result` is written as `-<chat_result status="n" />` with `n` in plain digits |
| Responses.ChatResultLiterals014 | Program.cs:469-485 | the three literal results for status 0, 1 and 4 are those renderings |
| Clock.Masked | Program.cs:320 | `x & int.MaxValue` is a tick in [0, 2^31) congruent to `x` modulo 2^31 |
| Clock.Wrap32 | Program.cs:376 | a wrapped 32-bit value is congruent to the exact one modulo 2^32 and equal to it when in range |
| Clock.Elapsed | Program.cs:313-314 | elapsed ticks lie in [0, 2^31) and equal `(now - last) mod 2^31` |
| Clock.ElapsedMeasuresDuration | Program.cs:313-314 | measured from a tick taken `d < 2^31` ms earlier, elapsed is exactly `d` across counter wrap-around |
| Clock.KeepAliveDue | Program.cs:315-328 | keepSeat is due iff the interval is positive and more than interval·1000 ms passed; otherwise the empty comment frame is due iff the room is joined and more than 60000 ms passed |
| Clock.SeatLeaseHonoured | Program.cs:315 | with interval 1..1000 s, keepSeat is due exactly when more than interval·1000 ms passed |
| Clock.CommentKeepHonoured | Program.cs:315-328 | measured across wrap-around, the empty comment frame is due iff keepSeat is not due, the room is joined and more than 60000 ms passed; with no seat interval that is the whole choice |
| Strings.SplitFirst | Program.cs:358 | `Split(c, 2)` gives one piece iff `c` is absent; otherwise the text is first piece + `c` + rest, with no `c` in the first piece |
| Strings.JoinSplitAll | Program.cs:219 | splitting on LF and joining again gives back the text |
| Strings.ParseIntToString | Program.cs:554-557 | `long.ToString()` output parses back to the same integer |
| Posting.VocabulariesHaveNoSpaces | Program.cs:366-371 | every alternative of the four mail patterns is a word without spaces |
| Posting.Scan | Program.cs:366-371 | a successful match captures one of the pattern's alternatives |
| Posting.ScanTokens | Program.cs:366-371 | on ` text `, the leftmost match captures the first space-separated token of `text` that is listed |
| Posting.ParseMailByTokens | Program.cs:365-371 | colour, position and size are the first listed token of each vocabulary; anonymous iff some token is `184` |
| Posting.CommentTextByChar | Program.cs:374 | the body keeps its length, each 0x1E becomes LF and every other character stays |
| Posting.PostGate | Program.cs:358-362 | a post is produced iff the text after `+[` contains `]`, the base time is present and positive, and the server time reached it |
| Posting.PostNeedsServerTime | Program.cs:359-362 | while the server time is still 0 every post is refused |
| Posting.PostFields | Program.cs:355-390 | an accepted `+[mail]text` sends the token-derived colour, anonymity, position, size, the mapped body and vpos |
| Posting.VposCentiseconds | Program.cs:376 | vpos equals (server time − base)·100 + elapsed/10 and is non-negative when it fits in 32 bits |
| Validate.BroadcastIdPattern | Program.cs:232 | the id pattern matches iff `ch`/`lv` then digits to the end, one final LF tolerated |
| Validate.BroadcastIdFromLine | Program.cs:232 | for text without LF the id is accepted iff it is `ch` or `lv` followed by at least one digit |
| Validate.HostOf | Program.cs:248 | the host is the text after `wss://` up to the first `/`, which holds no `/` |
| Validate.SocketUrlPattern | Program.cs:247-248 | the URL pattern matches iff `wss://`, then a host of `[0-9A-Za-z.-]` up to the first `/` ending in `.nicovideo.jp` with at least one character before it |
| Validate.SocketUrl | Program.cs:247-250 | an accepted page descriptor's socket URL satisfies the plain description |
| Commands.Arguments | Program.cs:94 | the first argument contains no space |
| Commands.ArgumentsRejoin | Program.cs:94-100 | command char + first argument (+ space + cookie) rebuilds the line; without a space the cookie is empty |
| Commands.ReadCommands | Program.cs:187-197 | the queue is the longest run of input lines before the end of input or a `q` line, in order, and holds no `q` line |
| Commands.QueuedLines | Program.cs:187-197 | a line is queued iff it and every line before it are present and do not start with `q` |
| Commands.UnknownCommands | Program.cs:90-166 | a line that reaches the dispatch in `Main` is answered `?` exactly when it is empty or its first character is not `G`, `L`, `+`, `c`; lines taken by a running stream are never answered |
| Commands.HttpGetLines | Program.cs:205-223 | a failed fetch is answered with exactly `!`; a successful one with at least one line and then `.` |
| Commands.HttpGetLinesRoundTrip | Program.cs:219-223 | every answer line but the final `.` is a `-`-prefixed single line; undashed and joined with LF they give the page without CR |
| Session.Begin | Program.cs:231-285 | a started session satisfies the invariant and connects then sends `startWatching`; a failed start prints exactly `!` |
| Session.BeginOutcome | Program.cs:231-285 | a stream starts iff the id is well-formed and the page has an acceptable socket URL, in the fresh state, connecting to that URL and sending `startWatching`; otherwise exactly `!` is printed |
| Session.InitValid | Program.cs:287-296 | a new session satisfies the invariant, has not joined a comment room and has server time 0 |
| Session.KeepAliveStep | Program.cs:313-328 | the keep-alive sent is exactly the one that is due (keepSeat, the empty comment frame, or none), and only the two keep-alive ticks can change |
| Session.KeepAliveResetsOwnTick | Program.cs:315-328 | keepSeat resets only the seat tick; the empty comment frame resets only the comment tick and needs the room joined |
| Session.Shutdown | Program.cs:344-353 | closing ends with the watch close and `.`, and closes the comment socket iff joined |
| Session.PostAnswer | Program.cs:378-399 | built post data is sent to the watch session as `postComment`; with none, exactly status 1 is printed |
| Session.PostEffects | Program.cs:355-399 | a `+[` command yields one effect: a `postComment` carrying the built data iff the text holds `]` and the gate passes, else status 1 |
| Session.RefusedPost | Program.cs:395-399 | a refused post prints exactly `-<chat_result status="1" />` |
| Session.AcceptedPost | Program.cs:355-393 | an accepted `+[mail]text` sends one `postComment` with the token-derived colour, anonymity, position, size, the mapped body and the vpos |
| Session.Drain | Program.cs:342-401 | taking commands sends no keep-alive and joins nothing; only a `c` changes the state, to closed; a leading `+[` gets its own post effect first |
| Session.DrainWithoutClose | Program.cs:342-401 | without `c` all commands are taken and the state is unchanged; the effects are exactly the `+[` commands' post effects, one each, in queue order |
| Session.DrainPosts | Program.cs:342-399 | the `+[` command at queue position k yields its post effect, placed after the effects of the posts queued before it |
| Session.DrainAppend | Program.cs:342-401 | taking a queue in two polls gives the same effects, state and leftover as one poll, when the first holds no `c` |
| Session.DrainClose | Program.cs:342-353 | `c` closes both sockets after exactly the effects the earlier commands give alone, and leaves the commands after it queued |
| Session.PollStep | Program.cs:305-401 | a poll in a running session gives the keep-alive check's effects followed by the queue's |
| Session.FaultFails | Program.cs:586-592 | a failure in a running session prints `!` without `.` and ends the call; after the end it does nothing |
| Session.ErrorStatus | Program.cs:467-474 | a status is reported iff the error code is `INVALID_MESSAGE` or `COMMENT_POST_NOT_ALLOWED` |
| Session.ErrorCodes | Program.cs:467-474 | `INVALID_MESSAGE` prints status 1, `COMMENT_POST_NOT_ALLOWED` status 4, and any other code nothing |
| Session.PingAndPostResult | Program.cs:478-486 | `ping` is answered with `pong`, and `postCommentResult` prints status 0 |
| Session.CommentServer | Program.cs:502-503 | the message server's URI is chosen iff the room has a thread id and a `wss://` server URI |
| Session.HandshakeShape | Program.cs:507-520 | the opening message is `rs`, `ps`, the thread request with the room key and user id or `guest`, `pf`, `rf` |
| Session.RoomStep | Program.cs:489-526 | handling `room` sends no keep-alive or post and keeps the phase |
| Session.RoomJoins | Program.cs:489-526 | before joining, `room` prints `x_room`; with a thread id and a `wss://` URI it also joins that URI, restarts the comment tick and sends the handshake, else nothing more |
| Session.RoomIgnoredWhenConnected | Program.cs:489 | once joined, a `room` message changes nothing |
| Session.OtherMessagesIgnored | Program.cs:458-541 | a watch message of a type not handled changes nothing and does nothing |
| Session.SeatClamp | Program.cs:530-540 | `seat` stores min(interval, 1000) and restarts the seat tick |
| Session.DispatchWatch | Program.cs:455-543 | watch messages send no keep-alive or post, and only `room` can join the comment room |
| Session.WatchStep | Program.cs:407-427 | a watch fragment never sends keep-alives or posts, a joined room stays joined, and a final fragment under the limit dispatches the message with the count reset |
| Session.WatchFrameBuffer | Program.cs:411-427 | a non-text or overfull fragment closes and ends with `.`; a partial one only accumulates; a final one yields the keep-alive check's effects followed by the dispatched message's, with the count reset |
| Session.ClosingStep | Program.cs:414-420 | a closing pass ends with `.` after closing the watch socket, and the comment socket if joined |
| Session.CommentStep | Program.cs:429-446 | a comment fragment sends nothing and never changes the join state; before joining it is ignored; a final fragment under the limit dispatches the message with the count reset |
| Session.CommentFrameBuffer | Program.cs:433-446 | the comment-socket counterpart of the buffer rules, closing both sockets, a final fragment dispatching the comment message |
| Session.DispatchComment | Program.cs:546-583 | a comment-room message prints its lines; a `thread` sets the server time and its tick, and nothing else changes |
| Session.CommentOutput | Program.cs:550-580 | one line per present part, chat first, ping next, thread last, nothing but lines |
| Session.CommentLines | Program.cs:550-580 | a message with all three parts prints them in order; one with a single part prints just that line; an empty one prints nothing |
| Session.ThreadClock | Program.cs:569-572 | a `thread` sets the server time to its `server_time` and the tick to the masked now; no other field changes |
| Session.ClockSetOnlyByThread | Program.cs:569-572 | the server time changes only when a comment-room message carrying `thread` completes, to its `server_time`; and such a message always sets it |
| Session.ThreadSetsClock | Program.cs:546-572 | a completed comment message taken while joined sets the clock iff it carries `thread`, and otherwise leaves it |
| Session.EndedIsFinal | Program.cs:450-453 | after the call has ended, a pass does nothing |
| Session.HandleKeepsValid | Program.cs:411-446 | handling an event keeps buffers below 32768, the comment buffer empty until joined and the interval ≤ 1000 |
| Session.StepKeepsValid | Program.cs:305-584 | every pass preserves the session invariant |
| Session.RunKeepsValid | Program.cs:305-584 | every run preserves the session invariant |
| Session.HandleSendsNoKeepAlive | Program.cs:337-447 | handling an event never sends a keep-alive |
| Session.OneKeepAlivePerStep | Program.cs:315-328 | at most one keep-alive goes out per pass |
| Session.StepConnects | Program.cs:489-526 | a pass joins the comment room only when not yet joined, and a joined room stays joined |
| Session.ConnectAtMostOnce | Program.cs:489-526 | over any run the comment room is joined at most once |
| Session.StepPostsNeedClock | Program.cs:359-362 | while the server time is 0 a pass sends no post |
| Session.NoPostBeforeThread | Program.cs:359-362 | until a `thread` arrives, no run sends a post and the server time stays where it started |

## Left out

- Socket and HTTP I/O are left out. This covers `ClientWebSocket` connect, send, receive and close, `HttpClientGetStringAsync` with its cancellation handling (Program.cs:607-646), the standard input and output threads, and the parent-process watchdog. They appear only as effects and events. The `G` fetch result is an `Option<string>` input, `None` standing for a failed fetch.
- Scraping and JSON are left out. The watch page's `embedded-data` scrape and the `DataContractJsonSerializer` decoding (Program.cs:238-245) are library behaviour. The page is an `Option<Embedded>` input, `None` standing for a fetch or scrape that failed. Decoded messages arrive with their frames. The JSON the handler sends (`startWatching`, `keepSeat`, `pong`, `postComment`, the opening list) is a datatype value, not bytes.
- The receive buffers' bytes are not modelled; only their byte counts are. The decoded message travels with the final fragment.
- Timing and scheduling are left out. The 200 ms poll delay and `Task.WhenAny`'s choice become the order of events in a trace. Each pass takes one tick reading `now`, where the source reads `Environment.TickCount` several times in one pass.
- Cancellation by quitting is left out: it ends the process. Every other exception inside the session is the `Fault` event, which prints `!` without `.`.
- `Trace.WriteLine` diagnostics are left out.
- Strings are sequences of Unicode characters, where .NET strings are sequences of UTF-16 code units. `Substring`, `Split`, `Replace` and `IndexOf` are modelled on characters. Every decision the handler makes looks only at ASCII characters, so no modelled operation differs.
- Numbers are formatted as under the invariant culture. `long.ToString()` follows the current culture's negative sign, and the model always writes ASCII `-`.
- Settings.cs is not part of this model. It does file I/O and platform data protection.
- The commented-out legacy code (Program.cs:114-160 and 654-809) is dead code and is not modelled.
- JSON numbers are integers. The source's `double` fields cast to `long` or `int` are modelled as integers, with no float truncation.
- `& int.MaxValue` is written as `% 2^31`. The two agree on every 32-bit value, and 32-bit overflow in the vpos formula is written out with `Wrap32`.
- The `arg.Length < 1` branches of `G` and `L` (Program.cs:95-99, 106-110) are not modelled. `Split` always returns at least one piece, so they cannot run.
- Clock.SeatLeaseHonoured: covers stored intervals 1..1000 s and durations below 2^31 ms only. The intervals are all the handler stores, and longer silences are not characterised.
- Posting.VposCentiseconds: states the centisecond formula only when the result fits in 32 bits. `Vpos` models the wrapped cases too, but they are not characterised.

=== FILE: clock.dfy ===
/**
 * The stream handler's millisecond clock. `Environment.TickCount` is a signed 32-bit counter
 * that wraps around; the handler masks every reading with `int.MaxValue`, keeping 31 bits, and
 * measures elapsed time as the masked difference. This module also decides which keep-alive,
 * if any, is due at the top of each wait.
 */
module Clock {
  /** A signed 32-bit value, as `int` holds it in the source. */
  type Int32 = x: int | -0x8000_0000 <= x < 0x8000_0000

  /** A tick reading after `& int.MaxValue`. */
  type Tick = x: int | 0 <= x < 0x8000_0000

  const TickModulus: int := 0x8000_0000

  /** The 32-bit two's complement wrap of an `int` expression that overflows. */
  function Wrap32(x: int): (r: Int32)
    ensures (r - x) % 0x1_0000_0000 == 0
    ensures -0x8000_0000 <= x < 0x8000_0000 ==> r == x
  {
    var m := x % 0x1_0000_0000;
    if m >= 0x8000_0000 then m - 0x1_0000_0000 else m
  }

  /** `x & int.MaxValue` for a 32-bit `x`: clearing the sign bit keeps the residue modulo 2^31. */
  function Masked(x: int): (t: Tick)
    ensures (t - x) % TickModulus == 0
    ensures 0 <= x < TickModulus ==> t == x
  {
    x % TickModulus
  }

  /** `((now & int.MaxValue) - last) & int.MaxValue`: milliseconds since `last`, modulo 2^31. */
  function Elapsed(now: Int32, last: Tick): (d: Tick)
    ensures d == (now - last) % TickModulus
  {
    Masked(Masked(now) - last)
  }

  /**
   * Measured from a tick taken `d` milliseconds earlier, the elapsed time is exactly `d` when
   * `d` is below 2^31, however often the 32-bit counter wrapped in between.
   */
  lemma ElapsedMeasuresDuration(t0: Int32, d: int)
    requires 0 <= d < TickModulus
    ensures Elapsed(Wrap32(t0 + d), Masked(t0)) == d
  {
    var now := Wrap32(t0 + d);
    var k := (now - (t0 + d)) / 0x1_0000_0000;
    assert now == t0 + d + k * 0x1_0000_0000;
    var j := (Masked(t0) - t0) / TickModulus;
    assert Masked(t0) == t0 + j * TickModulus;
    assert now - Masked(t0) == d + (2 * k - j) * TickModulus;
    ModuloShift(d, 2 * k - j);
  }

  lemma ModuloShift(d: int, n: int)
    requires 0 <= d < TickModulus
    ensures (d + n * TickModulus) % TickModulus == d
  {
  }

  // ---------------------------------------------------------------------------
  // Keep-alives

  /** Milliseconds of silence after which the comment room is sent an empty frame. */
  const CommentKeepMillis: int := 60000

  /** The seat interval the handler stores: the server's value, capped at 1000 seconds. */
  const MaxSeatIntervalSec: int := 1000

  datatype KeepAlive = SendKeepSeat | SendCommentKeep | NoKeepAlive

  predicate SeatDue(seatIntervalSec: int, seatTick: Tick, now: Int32) {
    seatIntervalSec > 0 && Elapsed(now, seatTick) > seatIntervalSec * 1000
  }

  predicate CommentKeepDue(connected: bool, commentTick: Tick, now: Int32) {
    connected && Elapsed(now, commentTick) > CommentKeepMillis
  }

  /** The keep-alive sent before waiting: the seat first, the comment room only when the seat is not due. */
  function KeepAliveDue(seatIntervalSec: int, seatTick: Tick, connected: bool, commentTick: Tick, now: Int32): (k: KeepAlive)
    ensures k == SendKeepSeat <==> seatIntervalSec > 0 && Elapsed(now, seatTick) > seatIntervalSec * 1000
    ensures k == SendCommentKeep <==> k != SendKeepSeat && connected && Elapsed(now, commentTick) > CommentKeepMillis
  {
    if SeatDue(seatIntervalSec, seatTick, now) then SendKeepSeat
    else if CommentKeepDue(connected, commentTick, now) then SendCommentKeep
    else NoKeepAlive
  }

  /**
   * With a stored interval of 1..1000 seconds and the seat tick taken `d` milliseconds ago, the
   * seat keep-alive is due exactly when more than the interval has passed.
   */
  lemma SeatLeaseHonoured(seatIntervalSec: int, t0: Int32, d: int, connected: bool, commentTick: Tick)
    requires 0 < seatIntervalSec <= MaxSeatIntervalSec && 0 <= d < TickModulus
    ensures KeepAliveDue(seatIntervalSec, Masked(t0), connected, commentTick, Wrap32(t0 + d)) == SendKeepSeat
      <==> d > seatIntervalSec * 1000
  {
    ElapsedMeasuresDuration(t0, d);
  }

  /**
   * With the comment tick taken `d` milliseconds ago, the empty comment-room frame is due exactly
   * when the seat keep-alive is not, the room is joined and more than 60 s have passed. While no
   * seat interval is known, that is the only keep-alive ever sent.
   */
  lemma CommentKeepHonoured(seatIntervalSec: int, seatTick: Tick, t0: Int32, d: int, connected: bool)
    requires 0 <= d < TickModulus
    ensures KeepAliveDue(seatIntervalSec, seatTick, connected, Masked(t0), Wrap32(t0 + d)) == SendCommentKeep
      <==> !SeatDue(seatIntervalSec, seatTick, Wrap32(t0 + d)) && connected && d > CommentKeepMillis
    ensures seatIntervalSec <= 0 ==>
      KeepAliveDue(seatIntervalSec, seatTick, connected, Masked(t0), Wrap32(t0 + d))
        == if connected && d > CommentKeepMillis then SendCommentKeep else NoKeepAlive
  {
    ElapsedMeasuresDuration(t0, d);
  }
}

=== FILE: commands.dfy ===
/**
 * The line protocol on standard input: the first character of a line selects the command, the
 * rest is its argument text. `G uri cookie` fetches a page, `L id cookie` streams a broadcast,
 * `+` and `c` are only meaningful to a running stream, `q` (or the end of input) quits, and any
 * other line is answered with `?`.
 */
module Commands {
  import opened Wrappers
  import opened Strings

  /** A line starting with `q` ends the reader. */
  predicate IsQuit(line: string) {
    |line| > 0 && line[0] == 'q'
  }

  /**
   * The reader loop: lines are queued in order until the end of input (`None`) or a line that
   * starts with `q`, which is not queued.
   */
  function ReadCommands(input: seq<Option<string>>): (queue: seq<string>)
    ensures |queue| <= |input|
    ensures forall k | 0 <= k < |queue| :: input[k] == Some(queue[k]) && !IsQuit(queue[k])
    ensures |queue| < |input| ==> input[|queue|].None? || IsQuit(input[|queue|].value)
  {
    if |input| == 0 || input[0].None? || IsQuit(input[0].value) then []
    else [input[0].value] + ReadCommands(input[1..])
  }

  datatype Command =
    | HttpGet(uri: string, cookie: string)
    | WatchStream(lvId: string, cookie: string)
    | Ignored
    | Unknown

  /** `comm.Substring(1).Split(' ', 2)`: the first word, and the rest of the line as the cookie. */
  function Arguments(comm: string): (args: (string, string))
    requires |comm| >= 1
    ensures ' ' !in args.0
  {
    var parts := SplitFirst(comm[1..], ' ');
    (parts[0], if |parts| >= 2 then parts[1] else "")
  }

  /** `switch (comm.FirstOrDefault())`: an empty line reads as `'\0'` and falls to the default. */
  function Classify(comm: string): Command {
    if |comm| == 0 then Unknown
    else if comm[0] == 'G' then HttpGet(Arguments(comm).0, Arguments(comm).1)
    else if comm[0] == 'L' then WatchStream(Arguments(comm).0, Arguments(comm).1)
    else if comm[0] == '+' || comm[0] == 'c' then Ignored
    else Unknown
  }

  /** The immediate answer to a command the reader does not run: `?` for an unknown one. */
  function Reply(c: Command): seq<string> {
    if c.Unknown? then ["?"] else []
  }

  /**
   * A line that reaches the dispatch is answered with `?` exactly when it is empty or starts with
   * none of `G`, `L`, `+`, `c`. A `q` line never reaches it, since the reader stops there, and
   * neither does a line a running stream takes from the queue.
   */
  lemma UnknownCommands(comm: string)
    ensures Reply(Classify(comm)) == ["?"] <==> |comm| == 0 || comm[0] !in "GL+c"
  {
  }

  /** Every queued line is dispatched; only the stop line is not, and it is never answered. */
  lemma {:induction false} QueuedLines(input: seq<Option<string>>, k: nat)
    requires k < |input|
    ensures (forall j | 0 <= j <= k :: input[j].Some? && !IsQuit(input[j].value)) <==> k < |ReadCommands(input)|
  {
    var queue := ReadCommands(input);
    if k < |queue| {
      forall j | 0 <= j <= k
        ensures input[j].Some? && !IsQuit(input[j].value)
      {
        assert input[j] == Some(queue[j]);
      }
    }
  }

  /** The first argument runs to the first space; the cookie is everything after it, spaces included. */
  lemma ArgumentsRejoin(comm: string)
    requires |comm| >= 1
    ensures comm == [comm[0]] + Arguments(comm).0 + (if ' ' in comm[1..] then " " + Arguments(comm).1 else "")
    ensures ' ' !in comm[1..] ==> Arguments(comm).1 == ""
  {
    assert comm == [comm[0]] + comm[1..];
  }

  // ---------------------------------------------------------------------------
  // The `G` command's answer

  /** Every line of the fetched text, carriage returns removed, each prefixed with `-`. */
  function Dashed(parts: seq<string>): (lines: seq<string>)
    ensures |lines| == |parts|
    ensures forall k | 0 <= k < |parts| :: lines[k] == "-" + parts[k]
  {
    seq(|parts|, k requires 0 <= k < |parts| => "-" + parts[k])
  }

  /** The response to `G`: the page line by line and `.`, or `!` when the fetch failed (`None`). */
  function HttpGetLines(body: Option<string>): (lines: seq<string>)
    ensures |lines| >= 1
    ensures body.None? ==> lines == ["!"]
    ensures body.Some? ==> |lines| >= 2 && lines[|lines| - 1] == "."
  {
    match body
    case None => ["!"]
    case Some(text) => Dashed(SplitAll(ReplaceChar(text, '\r', ""), '\n')) + ["."]
  }

  /** Each line with its first character taken off. */
  function Undash(lines: seq<string>): (parts: seq<string>)
    requires forall k | 0 <= k < |lines| :: |lines[k]| >= 1
    ensures |parts| == |lines|
    ensures forall k | 0 <= k < |lines| :: lines[k] == [lines[k][0]] + parts[k]
  {
    seq(|lines|, k requires 0 <= k < |lines| => lines[k][1..])
  }

  /** Taking the dashes off again gives the pieces. */
  lemma UndashDashed(parts: seq<string>)
    ensures Undash(Dashed(parts)) == parts
  {
    var lines := Dashed(parts);
    forall k | 0 <= k < |parts|
      ensures Undash(lines)[k] == parts[k]
    {
      assert lines[k] == "-" + parts[k];
    }
  }

  lemma DropLast(a: seq<string>, x: string)
    ensures (a + [x])[..|a|] == a && (a + [x])[|a|] == x
  {
  }

  /**
   * A successful fetch answers with single lines that each start with `-`, then `.`; removing the
   * dashes and joining with line feeds gives the page with its carriage returns removed.
   */
  lemma HttpGetLinesRoundTrip(text: string)
    ensures var lines := HttpGetLines(Some(text));
      && |lines| >= 2
      && lines[|lines| - 1] == "."
      && (forall k | 0 <= k < |lines| - 1 :: |lines[k]| >= 1 && lines[k][0] == '-' && '\n' !in lines[k] && '\r' !in lines[k])
      && Join(Undash(lines[..|lines| - 1]), '\n') == ReplaceChar(text, '\r', "")
  {
    var flat := ReplaceChar(text, '\r', "");
    var parts := SplitAll(flat, '\n');
    var dashed := Dashed(parts);
    DropLast(dashed, ".");
    SplitAllAbsent(flat, '\n', '\r');
    forall k | 0 <= k < |dashed|
      ensures |dashed[k]| >= 1 && dashed[k][0] == '-' && '\n' !in dashed[k] && '\r' !in dashed[k]
    {
      assert dashed[k] == "-" + parts[k];
    }
    UndashDashed(parts);
    JoinSplitAll(flat, '\n');
  }
}

=== FILE: escape.dfy ===
/**
 * The escaping applied to every response line: `HtmlEncodeAmpLtGt` on text and attribute
 * values, then the line-level pass that turns LF and CR into character references so that a
 * value can never break the line-oriented channel.
 */
module Escape {
  import opened Strings

  /**
   * `HtmlEncodeAmpLtGt(s, encodeQuot)` (Program.cs): replace `&`, then `<`, then `>`, and
   * finally `"` when `encodeQuot` is set, each pass over the whole text.
   */
  function HtmlEncodeAmpLtGt(s: string, encodeQuot: bool): (r: string)
    ensures '<' !in r && '>' !in r
    ensures encodeQuot ==> '"' !in r
  {
    var s1 := ReplaceChar(ReplaceChar(ReplaceChar(s, '&', "&amp;"), '<', "&lt;"), '>', "&gt;");
    if encodeQuot then ReplaceChar(s1, '"', "&quot;") else s1
  }

  /** The line-level pass `.Replace("\n", "&#10;").Replace("\r", "&#13;")`. */
  function LineSafe(s: string): (r: string)
    ensures '\n' !in r && '\r' !in r
  {
    ReplaceChar(ReplaceChar(s, '\n', "&#10;"), '\r', "&#13;")
  }

  // ---------------------------------------------------------------------------
  // The same escapings described one character at a time.

  /** What one character becomes under `HtmlEncodeAmpLtGt`. */
  function EscChar(ch: char, quot: bool): string {
    if ch == '&' then "&amp;"
    else if ch == '<' then "&lt;"
    else if ch == '>' then "&gt;"
    else if quot && ch == '"' then "&quot;"
    else [ch]
  }

  /** What one character of a value becomes on the wire: HTML escaping, then CR/LF references. */
  function WireChar(ch: char, quot: bool): string {
    if ch == '\n' then "&#10;"
    else if ch == '\r' then "&#13;"
    else EscChar(ch, quot)
  }

  function Escaped(s: string, quot: bool): string {
    if |s| == 0 then "" else EscChar(s[0], quot) + Escaped(s[1..], quot)
  }

  function Wire(s: string, quot: bool): string {
    if |s| == 0 then "" else WireChar(s[0], quot) + Wire(s[1..], quot)
  }

  lemma EncodeAppend(a: string, b: string, quot: bool)
    ensures HtmlEncodeAmpLtGt(a + b, quot) == HtmlEncodeAmpLtGt(a, quot) + HtmlEncodeAmpLtGt(b, quot)
  {
    ReplaceAppend(a, b, '&', "&amp;");
    var a1, b1 := ReplaceChar(a, '&', "&amp;"), ReplaceChar(b, '&', "&amp;");
    ReplaceAppend(a1, b1, '<', "&lt;");
    var a2, b2 := ReplaceChar(a1, '<', "&lt;"), ReplaceChar(b1, '<', "&lt;");
    ReplaceAppend(a2, b2, '>', "&gt;");
    var a3, b3 := ReplaceChar(a2, '>', "&gt;"), ReplaceChar(b2, '>', "&gt;");
    ReplaceAppend(a3, b3, '"', "&quot;");
  }

  /** The references the passes insert contain none of the characters later passes replace. */
  lemma ReferencesSurviveLaterPasses()
    ensures '<' !in "&amp;" && '>' !in "&amp;" && '>' !in "&lt;"
    ensures '"' !in "&amp;" && '"' !in "&lt;" && '"' !in "&gt;"
  {
  }

  /** The three unconditional passes applied to one character. */
  lemma AmpLtGtOne(ch: char)
    ensures ReplaceChar(ReplaceChar(ReplaceChar([ch], '&', "&amp;"), '<', "&lt;"), '>', "&gt;") == EscChar(ch, false)
  {
    ReferencesSurviveLaterPasses();
    ReplaceSingle(ch, '&', "&amp;");
    if ch == '&' {
      ReplaceAbsent("&amp;", '<', "&lt;");
      ReplaceAbsent("&amp;", '>', "&gt;");
    } else {
      ReplaceSingle(ch, '<', "&lt;");
      if ch == '<' {
        ReplaceAbsent("&lt;", '>', "&gt;");
      } else {
        ReplaceSingle(ch, '>', "&gt;");
      }
    }
  }

  lemma EncodeOne(ch: char, quot: bool)
    ensures HtmlEncodeAmpLtGt([ch], quot) == EscChar(ch, quot)
  {
    AmpLtGtOne(ch);
    if quot {
      if ch == '&' || ch == '<' || ch == '>' {
        ReferencesSurviveLaterPasses();
        ReplaceAbsent(EscChar(ch, false), '"', "&quot;");
      } else {
        ReplaceSingle(ch, '"', "&quot;");
      }
    }
  }

  /** The four sequential passes of `HtmlEncodeAmpLtGt` amount to escaping each character on its own. */
  lemma {:induction false} EncodeIsCharwise(s: string, quot: bool)
    ensures HtmlEncodeAmpLtGt(s, quot) == Escaped(s, quot)
  {
    if |s| > 0 {
      assert s == [s[0]] + s[1..];
      EncodeAppend([s[0]], s[1..], quot);
      EncodeOne(s[0], quot);
      EncodeIsCharwise(s[1..], quot);
    }
  }

  lemma LineSafeAppend(a: string, b: string)
    ensures LineSafe(a + b) == LineSafe(a) + LineSafe(b)
  {
    ReplaceAppend(a, b, '\n', "&#10;");
    ReplaceAppend(ReplaceChar(a, '\n', "&#10;"), ReplaceChar(b, '\n', "&#10;"), '\r', "&#13;");
  }

  lemma LineSafeAbsent(s: string)
    requires '\n' !in s && '\r' !in s
    ensures LineSafe(s) == s
  {
    ReplaceAbsent(s, '\n', "&#10;");
    ReplaceAbsent(s, '\r', "&#13;");
  }

  lemma LineSafeEscChar(ch: char, quot: bool)
    ensures LineSafe(EscChar(ch, quot)) == WireChar(ch, quot)
  {
    if ch == '\n' || ch == '\r' {
      assert EscChar(ch, quot) == [ch];
      ReplaceSingle(ch, '\n', "&#10;");
      var once := ReplaceChar([ch], '\n', "&#10;");
      if ch == '\n' {
        LineBreakReferences();
        ReplaceAbsent(once, '\r', "&#13;");
      } else {
        ReplaceSingle(ch, '\r', "&#13;");
      }
    } else {
      LineSafeAbsent(EscChar(ch, quot));
    }
  }

  lemma LineBreakReferences()
    ensures '\r' !in "&#10;"
  {
  }

  /** The line-level pass applied to an HTML-escaped value is the character-wise wire escaping. */
  lemma {:induction false} LineSafeOfEncoded(s: string, quot: bool)
    ensures LineSafe(HtmlEncodeAmpLtGt(s, quot)) == Wire(s, quot)
  {
    EncodeIsCharwise(s, quot);
    LineSafeOfEscaped(s, quot);
  }

  lemma {:induction false} LineSafeOfEscaped(s: string, quot: bool)
    ensures LineSafe(Escaped(s, quot)) == Wire(s, quot)
  {
    if |s| > 0 {
      LineSafeAppend(EscChar(s[0], quot), Escaped(s[1..], quot));
      LineSafeEscChar(s[0], quot);
      LineSafeOfEscaped(s[1..], quot);
    }
  }

  // ---------------------------------------------------------------------------
  // Reading escaped text back.

  /** Decodes the six character references the bridge can produce; any other text is literal. */
  function Unescape(s: string): string
    decreases |s|
  {
    if |s| == 0 then ""
    else if s[0] == '&' && "&amp;" <= s then "&" + Unescape(s[5..])
    else if s[0] == '&' && "&lt;" <= s then "<" + Unescape(s[4..])
    else if s[0] == '&' && "&gt;" <= s then ">" + Unescape(s[4..])
    else if s[0] == '&' && "&quot;" <= s then "\"" + Unescape(s[6..])
    else if s[0] == '&' && "&#10;" <= s then "\n" + Unescape(s[5..])
    else if s[0] == '&' && "&#13;" <= s then "\r" + Unescape(s[5..])
    else [s[0]] + Unescape(s[1..])
  }

  lemma UnescapeWireChar(ch: char, quot: bool, rest: string)
    ensures Unescape(WireChar(ch, quot) + rest) == [ch] + Unescape(rest)
  {
    var w := WireChar(ch, quot);
    if w == [ch] {
      assert ch != '&';
      assert (w + rest)[1..] == rest;
    } else {
      UnescapeReference(w, ch, rest);
    }
  }

  /** A character reference followed by anything decodes to its character. */
  lemma UnescapeReference(w: string, ch: char, rest: string)
    requires (w, ch) in {("&amp;", '&'), ("&lt;", '<'), ("&gt;", '>'), ("&quot;", '"'), ("&#10;", '\n'), ("&#13;", '\r')}
    ensures Unescape(w + rest) == [ch] + Unescape(rest)
  {
    var s := w + rest;
    DropPrefix(w, rest);
    assert s[0] == '&' && s[1] == w[1];
    if w[1] == '#' {
      assert s[2] == w[2] && s[3] == w[3];
    }
    assert s[..|w|] == w;
  }

  /** Unescaping a wire-escaped value gives back the value exactly, CR and LF included. */
  lemma {:induction false} UnescapeWire(s: string, quot: bool)
    ensures Unescape(Wire(s, quot)) == s
  {
    if |s| > 0 {
      UnescapeWireChar(s[0], quot, Wire(s[1..], quot));
      UnescapeWire(s[1..], quot);
      assert s == [s[0]] + s[1..];
    }
  }

  lemma {:induction false} UnescapeEscaped(s: string, quot: bool)
    ensures Unescape(Escaped(s, quot)) == s
  {
    if |s| > 0 {
      var rest := Escaped(s[1..], quot);
      if s[0] == '\n' || s[0] == '\r' {
        assert EscChar(s[0], quot) + rest == [s[0]] + rest;
        assert ([s[0]] + rest)[1..] == rest;
      } else {
        UnescapeWireChar(s[0], quot, rest);
      }
      UnescapeEscaped(s[1..], quot);
      assert s == [s[0]] + s[1..];
    }
  }

  /** `HtmlEncodeAmpLtGt` loses nothing: unescaping its output recovers the input. */
  lemma EncodeRoundTrip(s: string, quot: bool)
    ensures Unescape(HtmlEncodeAmpLtGt(s, quot)) == s
  {
    EncodeIsCharwise(s, quot);
    UnescapeEscaped(s, quot);
  }

  // ---------------------------------------------------------------------------
  // Because `&` is replaced first, every `&` in the output starts a reference.

  predicate HtmlEntityAt(r: string, i: nat)
    requires i <= |r|
  {
    "&amp;" <= r[i..] || "&lt;" <= r[i..] || "&gt;" <= r[i..] || "&quot;" <= r[i..]
  }

  predicate AmpsAreEntities(r: string) {
    forall i | 0 <= i < |r| && r[i] == '&' :: HtmlEntityAt(r, i)
  }

  lemma AmpsConcat(a: string, b: string)
    requires AmpsAreEntities(a) && AmpsAreEntities(b)
    ensures AmpsAreEntities(a + b)
  {
    var ab := a + b;
    forall i | 0 <= i < |ab| && ab[i] == '&'
      ensures HtmlEntityAt(ab, i)
    {
      if i < |a| {
        assert a[i] == '&';
        assert ab[i..] == a[i..] + b;
        assert HtmlEntityAt(a, i);
      } else {
        assert ab[i..] == b[i - |a|..];
        assert b[i - |a|] == '&';
      }
    }
  }

  lemma {:induction false} EscapedAmps(s: string, quot: bool)
    ensures AmpsAreEntities(Escaped(s, quot))
  {
    if |s| > 0 {
      var e := EscChar(s[0], quot);
      assert AmpsAreEntities(e) by {
        forall i | 0 <= i < |e| && e[i] == '&'
          ensures HtmlEntityAt(e, i)
        {
          assert i == 0;
        }
      }
      EscapedAmps(s[1..], quot);
      AmpsConcat(e, Escaped(s[1..], quot));
    }
  }

  /** Every `&` that `HtmlEncodeAmpLtGt` emits begins `&amp;`, `&lt;`, `&gt;` or `&quot;`. */
  lemma EncodeAmpsAreEntities(s: string, quot: bool)
    ensures AmpsAreEntities(HtmlEncodeAmpLtGt(s, quot))
  {
    EncodeIsCharwise(s, quot);
    EscapedAmps(s, quot);
  }

  /** Without `encodeQuot`, a double quote passes through untouched. */
  lemma EncodeKeepsQuotes(s: string)
    requires '"' in s
    ensures '"' in HtmlEncodeAmpLtGt(s, false)
  {
    var i :| 0 <= i < |s| && s[i] == '"';
    EncodeIsCharwise(s, false);
    EscapedKeeps(s, i);
  }

  lemma {:induction false} EscapedKeeps(s: string, i: nat)
    requires i < |s| && s[i] == '"'
    ensures '"' in Escaped(s, false)
  {
    if i == 0 {
      assert Escaped(s, false)[0] == '"';
    } else {
      EscapedKeeps(s[1..], i - 1);
    }
  }

  // ---------------------------------------------------------------------------
  // Text without special characters passes through unchanged.

  /** No character the HTML encoding replaces. */
  predicate Plain(s: string) {
    forall i | 0 <= i < |s| :: s[i] !in "&<>\""
  }

  /** No line break, which the wire form would also escape. */
  predicate SingleLine(s: string) {
    forall i | 0 <= i < |s| :: s[i] != '\n' && s[i] != '\r'
  }

  lemma EncodePlain(s: string, quot: bool)
    requires Plain(s)
    ensures HtmlEncodeAmpLtGt(s, quot) == s
  {
    ReplaceAbsent(s, '&', "&amp;");
    ReplaceAbsent(s, '<', "&lt;");
    ReplaceAbsent(s, '>', "&gt;");
    ReplaceAbsent(s, '"', "&quot;");
  }

  lemma {:induction false} WirePlain(s: string, quot: bool)
    requires Plain(s) && SingleLine(s)
    ensures Wire(s, quot) == s
  {
    if |s| > 0 {
      assert s[0] !in "&<>\"" && s[0] != '\n' && s[0] != '\r';
      WirePlain(s[1..], quot);
      assert s == [s[0]] + s[1..];
    }
  }

  /** A number as `long.ToString()` writes it needs no escaping. */
  lemma NumberIsPlain(n: int)
    ensures Plain(IntToString(n)) && SingleLine(IntToString(n))
  {
    IntToStringChars(n);
  }
}

=== FILE: lines.dfy ===
/**
 * The shape shared by every tagged response line: `-<tag`, attributes ` name="value"` in a
 * fixed order, then either ` />` or `>text</tag>`, with the line-level CR/LF pass over the
 * whole. `ParseLine` reads such a line back; `ParseRender` shows that it recovers the element.
 */
module Lines {
  import opened Wrappers
  import opened Strings
  import opened Escape

  datatype Attr = Attr(name: string, value: string)

  datatype Body = SelfClosing | Content(text: string)

  datatype Element = Element(tag: string, attrs: seq<Attr>, body: Body)

  /** Tag and attribute names of the protocol are lower-case words joined by `_`. */
  predicate IsNameChar(ch: char) {
    'a' <= ch <= 'z' || ch == '_'
  }

  predicate IsName(s: string) {
    |s| > 0 && forall i | 0 <= i < |s| :: IsNameChar(s[i])
  }

  predicate WellFormed(e: Element) {
    IsName(e.tag) && forall i | 0 <= i < |e.attrs| :: IsName(e.attrs[i].name)
  }

  /** ` name="value"` with the value passed through `HtmlEncodeAmpLtGt(value, true)`. */
  function AttrText(a: Attr): string {
    " " + a.name + "=\"" + HtmlEncodeAmpLtGt(a.value, true) + "\""
  }

  function AttrsText(attrs: seq<Attr>): string {
    if |attrs| == 0 then "" else AttrText(attrs[0]) + AttrsText(attrs[1..])
  }

  function BodyText(tag: string, body: Body): string {
    match body
    case SelfClosing => " />"
    case Content(t) => ">" + HtmlEncodeAmpLtGt(t, false) + "</" + tag + ">"
  }

  /** A response line as the handler assembles it, the CR/LF pass applied last. */
  function Render(e: Element): (line: string)
    ensures '\n' !in line && '\r' !in line
    ensures "-<" <= line
  {
    var raw := "-<" + e.tag + AttrsText(e.attrs) + BodyText(e.tag, e.body);
    LineSafeAppend("-<", raw[2..]);
    assert raw == "-<" + raw[2..];
    LineSafeAbsent("-<");
    LineSafe(raw)
  }

  // ---------------------------------------------------------------------------
  // The rendered line described piecewise, each value escaped character by character.

  function AttrWire(a: Attr): (w: string)
    ensures |w| > 0 && w[0] == ' '
  {
    " " + a.name + "=\"" + Wire(a.value, true) + "\""
  }

  function AttrsWire(attrs: seq<Attr>): string {
    if |attrs| == 0 then "" else AttrWire(attrs[0]) + AttrsWire(attrs[1..])
  }

  function BodyWire(tag: string, body: Body): string {
    match body
    case SelfClosing => " />"
    case Content(t) => ">" + Wire(t, false) + "</" + tag + ">"
  }

  lemma NameIsLineSafe(s: string)
    requires IsName(s)
    ensures LineSafe(s) == s
  {
    LineSafeAbsent(s);
  }

  lemma {:induction false} AttrsLineSafe(attrs: seq<Attr>)
    requires forall i | 0 <= i < |attrs| :: IsName(attrs[i].name)
    ensures LineSafe(AttrsText(attrs)) == AttrsWire(attrs)
  {
    if |attrs| > 0 {
      var a := attrs[0];
      var v := HtmlEncodeAmpLtGt(a.value, true);
      LineSafeAppend(AttrText(a), AttrsText(attrs[1..]));
      LineSafeAppend(" " + a.name + "=\"" + v, "\"");
      LineSafeAppend(" " + a.name + "=\"", v);
      LineSafeAppend(" " + a.name, "=\"");
      LineSafeAppend(" ", a.name);
      LineSafeAbsent(" ");
      LineSafeAbsent("=\"");
      LineSafeAbsent("\"");
      NameIsLineSafe(a.name);
      LineSafeOfEncoded(a.value, true);
      AttrsLineSafe(attrs[1..]);
    }
  }

  lemma BodyLineSafe(tag: string, body: Body)
    requires IsName(tag)
    ensures LineSafe(BodyText(tag, body)) == BodyWire(tag, body)
  {
    match body
    case SelfClosing =>
      LineSafeAbsent(" />");
    case Content(t) =>
      var v := HtmlEncodeAmpLtGt(t, false);
      LineSafeAppend(">" + v + "</" + tag, ">");
      LineSafeAppend(">" + v + "</", tag);
      LineSafeAppend(">" + v, "</");
      LineSafeAppend(">", v);
      LineSafeAbsent(">");
      LineSafeAbsent("</");
      NameIsLineSafe(tag);
      LineSafeOfEncoded(t, false);
  }

  /** Since names hold no CR or LF, the line-level pass only ever touches the escaped values. */
  lemma RenderIsWire(e: Element)
    requires WellFormed(e)
    ensures Render(e) == "-<" + e.tag + AttrsWire(e.attrs) + BodyWire(e.tag, e.body)
  {
    var a, b := AttrsText(e.attrs), BodyText(e.tag, e.body);
    LineSafeAppend("-<" + e.tag + a, b);
    LineSafeAppend("-<" + e.tag, a);
    LineSafeAppend("-<", e.tag);
    LineSafeAbsent("-<");
    NameIsLineSafe(e.tag);
    AttrsLineSafe(e.attrs);
    BodyLineSafe(e.tag, e.body);
  }

  // ---------------------------------------------------------------------------
  // Reading a line back.

  /** The longest prefix made of name characters. */
  function TakeName(s: string): (n: string)
    ensures n <= s
    ensures forall i | 0 <= i < |n| :: IsNameChar(n[i])
  {
    if |s| > 0 && IsNameChar(s[0]) then [s[0]] + TakeName(s[1..]) else ""
  }

  /** Whether `s` begins like one more attribute: a space, then a name character. */
  predicate StartsAttr(s: string) {
    |s| >= 2 && s[0] == ' ' && IsNameChar(s[1])
  }

  /** Reads one ` name="value"` pair and returns it with the text that follows it. */
  function ParseAttr(s: string): (r: Option<(Attr, string)>)
    requires StartsAttr(s)
    ensures r.Some? ==> |r.value.1| < |s|
  {
    var name := TakeName(s[1..]);
    var after := s[1 + |name|..];
    if "=\"" <= after then
      var quoted := after[2..];
      var q := IndexOf(quoted, '"');
      if q < |quoted| then Some((Attr(name, Unescape(quoted[..q])), quoted[q + 1..]))
      else None
    else None
  }

  /** Reads attributes for as long as they follow; `None` for a malformed one. */
  function ParseAttrs(s: string): Option<(seq<Attr>, string)>
    decreases |s|
  {
    if StartsAttr(s) then
      match ParseAttr(s)
      case None => None
      case Some((a, tail)) =>
        match ParseAttrs(tail)
        case None => None
        case Some((more, rest)) => Some(([a] + more, rest))
    else Some(([], s))
  }

  /** Reads what follows the attributes: ` />`, or `>`, the escaped text and `</tag>`. */
  function ParseBody(tag: string, rest: string): Option<Body> {
    if rest == " />" then Some(SelfClosing)
    else
      var close := "</" + tag + ">";
      if |rest| >= 1 + |close| && rest[0] == '>' && rest[|rest| - |close|..] == close then
        Some(Content(Unescape(rest[1..|rest| - |close|])))
      else None
  }

  /** Reads a whole tagged line; `None` when it does not have the shape of one. */
  function ParseLine(line: string): Option<Element> {
    if !("-<" <= line) then None
    else
      var tag := TakeName(line[2..]);
      if |tag| == 0 then None else ParseAfterTag(tag, line[2 + |tag|..])
  }

  /** Reads the attributes and the body that follow the tag name. */
  function ParseAfterTag(tag: string, tail: string): Option<Element> {
    match ParseAttrs(tail)
    case None => None
    case Some((attrs, rest)) =>
      match ParseBody(tag, rest)
      case None => None
      case Some(body) => Some(Element(tag, attrs, body))
  }

  lemma {:induction false} TakeNameStops(n: string, rest: string)
    requires forall i | 0 <= i < |n| :: IsNameChar(n[i])
    requires |rest| == 0 || !IsNameChar(rest[0])
    ensures TakeName(n + rest) == n
  {
    if |n| > 0 {
      assert (n + rest)[1..] == n[1..] + rest;
      TakeNameStops(n[1..], rest);
    } else {
      assert n + rest == rest;
    }
  }

  lemma {:induction false} WireHasNoQuote(s: string)
    ensures '"' !in Wire(s, true)
  {
    if |s| > 0 {
      WireHasNoQuote(s[1..]);
    }
  }

  /** After ` name`, the name reader stops at `=`. */
  lemma AttrNamePart(name: string, after: string)
    requires IsName(name) && "=" <= after
    ensures TakeName((" " + (name + after))[1..]) == name
    ensures (" " + (name + after))[1 + |name|..] == after
  {
    DropPrefix(" ", name + after);
    TakeNameStops(name, after);
    DropPrefix(name, after);
  }

  /** In `w"tail` with no quote in `w`, the first quote closes `w`. */
  lemma QuotedPart(w: string, tail: string)
    requires '"' !in w
    ensures IndexOf(w + ("\"" + tail), '"') == |w|
    ensures (w + ("\"" + tail))[..|w|] == w
    ensures (w + ("\"" + tail))[|w| + 1..] == tail
  {
    var u := w + ("\"" + tail);
    assert u[..|w|] == w;
    IndexOfUnique(u, '"', |w|);
    assert u[|w| + 1..] == tail;
  }

  /** A pair ` name="w"` with no quote inside `w` is read as `name` and `Unescape(w)`. */
  lemma ParseQuotedAttr(name: string, w: string, tail: string)
    requires IsName(name) && '"' !in w
    ensures StartsAttr(" " + (name + ("=\"" + (w + ("\"" + tail)))))
    ensures ParseAttr(" " + (name + ("=\"" + (w + ("\"" + tail))))) == Some((Attr(name, Unescape(w)), tail))
  {
    var u := w + ("\"" + tail);
    var after := "=\"" + u;
    AttrNamePart(name, after);
    DropPrefix("=\"", u);
    QuotedPart(w, tail);
  }

  /** One attribute on the wire, followed by anything, is read back exactly. */
  lemma ParseOneAttr(a: Attr, tail: string)
    requires IsName(a.name)
    ensures StartsAttr(AttrWire(a) + tail)
    ensures ParseAttr(AttrWire(a) + tail) == Some((a, tail))
  {
    var w := Wire(a.value, true);
    assert AttrWire(a) + tail == " " + (a.name + ("=\"" + (w + ("\"" + tail))));
    WireHasNoQuote(a.value);
    ParseQuotedAttr(a.name, w, tail);
    UnescapeWire(a.value, true);
  }

  lemma {:induction false} ParseAttrsWire(attrs: seq<Attr>, rest: string)
    requires forall i | 0 <= i < |attrs| :: IsName(attrs[i].name)
    requires !StartsAttr(rest)
    ensures ParseAttrs(AttrsWire(attrs) + rest) == Some((attrs, rest))
  {
    if |attrs| == 0 {
      assert AttrsWire(attrs) + rest == rest;
    } else {
      var tail := AttrsWire(attrs[1..]) + rest;
      var line := AttrsWire(attrs) + rest;
      assert AttrsWire(attrs) == AttrWire(attrs[0]) + AttrsWire(attrs[1..]);
      Associate(AttrWire(attrs[0]), AttrsWire(attrs[1..]), rest);
      ParseOneAttr(attrs[0], tail);
      ParseAttrsWire(attrs[1..], rest);
      ParseAttrsCons(line, attrs[0], tail, attrs[1..], rest);
      assert [attrs[0]] + attrs[1..] == attrs;
    }
  }

  lemma ParseAttrsCons(s: string, a: Attr, tail: string, more: seq<Attr>, rest: string)
    requires StartsAttr(s) && ParseAttr(s) == Some((a, tail))
    requires ParseAttrs(tail) == Some((more, rest))
    ensures ParseAttrs(s) == Some(([a] + more, rest))
  {
  }

  lemma ParseBodyWire(tag: string, body: Body)
    ensures ParseBody(tag, BodyWire(tag, body)) == Some(body)
    ensures !StartsAttr(BodyWire(tag, body))
    ensures |BodyWire(tag, body)| > 0 && (BodyWire(tag, body)[0] == ' ' || BodyWire(tag, body)[0] == '>')
  {
    match body
    case SelfClosing =>
    case Content(t) =>
      var close := "</" + tag + ">";
      var w := Wire(t, false);
      var b := BodyWire(tag, body);
      assert b == ">" + w + close;
      assert b != " />";
      assert b[|b| - |close|..] == close;
      assert b[1..|b| - |close|] == w;
      UnescapeWire(t, false);
  }

  lemma LineHead(tag: string, tail: string)
    requires IsName(tag)
    requires |tail| == 0 || !IsNameChar(tail[0])
    ensures "-<" <= "-<" + (tag + tail)
    ensures TakeName(("-<" + (tag + tail))[2..]) == tag
    ensures ("-<" + (tag + tail))[2 + |tag|..] == tail
  {
    DropPrefix("-<", tag + tail);
    TakeNameStops(tag, tail);
    DropPrefix(tag, tail);
  }

  lemma ParseLineParts(tag: string, tail: string, attrs: seq<Attr>, rest: string, body: Body)
    requires IsName(tag)
    requires |tail| == 0 || !IsNameChar(tail[0])
    requires ParseAttrs(tail) == Some((attrs, rest))
    requires ParseBody(tag, rest) == Some(body)
    ensures ParseLine("-<" + (tag + tail)) == Some(Element(tag, attrs, body))
  {
    assert ParseAfterTag(tag, tail) == Some(Element(tag, attrs, body));
    LineHead(tag, tail);
  }

  /** What follows the tag on the wire starts with a space or `>`, never with a name character. */
  lemma AfterTagStart(attrs: seq<Attr>, b: string)
    requires |b| > 0 && (b[0] == ' ' || b[0] == '>')
    ensures |AttrsWire(attrs) + b| > 0 && !IsNameChar((AttrsWire(attrs) + b)[0])
  {
    if |attrs| > 0 {
      var w := AttrWire(attrs[0]);
      assert AttrsWire(attrs) == w + AttrsWire(attrs[1..]);
      assert (AttrsWire(attrs) + b)[0] == w[0];
    }
  }

  /** The piecewise form of a line reads back as its element. */
  lemma ParseWireLine(e: Element)
    requires WellFormed(e)
    ensures ParseLine("-<" + e.tag + AttrsWire(e.attrs) + BodyWire(e.tag, e.body)) == Some(e)
  {
    var b := BodyWire(e.tag, e.body);
    var tail := AttrsWire(e.attrs) + b;
    Reassociate("-<", e.tag, AttrsWire(e.attrs), b);
    ParseBodyWire(e.tag, e.body);
    AfterTagStart(e.attrs, b);
    ParseAttrsWire(e.attrs, b);
    ParseLineParts(e.tag, tail, e.attrs, b, e.body);
  }

  /** Reading a rendered line gives back the element it was rendered from. */
  lemma ParseRender(e: Element)
    requires WellFormed(e)
    ensures ParseLine(Render(e)) == Some(e)
  {
    RenderIsWire(e);
    ParseWireLine(e);
  }
}

=== FILE: messages.dfy ===
/**
 * The decoded JSON records the stream handler reads (SerializerClassDefinitions.cs), one
 * datatype per class. A JSON `null` or an absent member is `None`; numeric members, which the
 * source declares as `double` and casts to `long` or `int` before use, are integers here.
 */
module Messages {
  import opened Wrappers

  /** `WatchEmbeddedUser`. */
  datatype User = User(id: Option<string>, isLoggedIn: bool, nickname: Option<string>)

  /** `WatchEmbeddedRelive`. */
  datatype Relive = Relive(webSocketUrl: Option<string>)

  /** `WatchEmbeddedSite`. */
  datatype Site = Site(relive: Option<Relive>)

  /**
   * `WatchEmbedded`, the session descriptor scraped from the watch page. The handler also reads
   * `program.vposBaseTime`, a member the class does not declare; it is carried here as an
   * optional integer, `None` standing for a missing `program`.
   */
  datatype Embedded = Embedded(site: Option<Site>, user: Option<User>, vposBaseTime: Option<int>)

  /** `WatchSessionResultError`. */
  datatype ErrorData = ErrorData(code: Option<string>)

  /** `WatchSessionResultRoomMessageServer`. */
  datatype RoomMessageServer = RoomMessageServer(uri: Option<string>)

  /** `WatchSessionResultRoom`. */
  datatype Room = Room(
    messageServer: Option<RoomMessageServer>,
    threadId: Option<string>,
    yourPostKey: Option<string>,
    vposBaseTime: Option<string>)

  /** `WatchSessionResultSeat`. */
  datatype Seat = Seat(keepIntervalSec: int)

  /**
   * A complete message on the watch socket, by its `type` tag. Tags the handler has no case for
   * (`serverTime`, `messageServer`, `statistics`, `disconnect`, ...) are `OtherMsg`.
   */
  datatype WatchMsg =
    | ErrorMsg(error: Option<ErrorData>)
    | PingMsg
    | PostCommentResultMsg
    | RoomMsg(room: Option<Room>)
    | SeatMsg(seat: Option<Seat>)
    | OtherMsg(tag: Option<string>)

  /** `CommentSessionResultChat`. */
  datatype Chat = Chat(
    anonymity: int,
    content: Option<string>,
    date: int,
    dateUsec: int,
    mail: Option<string>,
    no: int,
    premium: int,
    thread: Option<string>,
    userId: Option<string>,
    vpos: int,
    yourpost: int)

  /** `CommentSessionResultThread`. */
  datatype Thread = Thread(
    content: Option<string>,
    lastRes: int,
    resultCode: int,
    revision: int,
    serverTime: int,
    thread: Option<string>,
    ticket: Option<string>)

  /** `ContentContainer`. */
  datatype ContentContainer = ContentContainer(content: Option<string>)

  /** `CommentSessionResult`: a comment-room frame may carry any of the three parts. */
  datatype CommentMsg = CommentMsg(chat: Option<Chat>, ping: Option<ContentContainer>, thread: Option<Thread>)
}

=== FILE: posting.dfy ===
/**
 * Posting a comment: the host writes `+[mail]text`. The bracket text carries space-separated
 * commands (colour, `184` for anonymity, position, size), the body carries the comment with
 * 0x1E standing for a line break, and the post is only sent once the comment room has told the
 * handler the server time, from which the comment's position in the broadcast is computed.
 */
module Posting {
  import opened Wrappers
  import opened Strings
  import opened Clock

  const Colors: seq<string> := [
    "white", "red", "pink", "orange", "yellow", "green", "cyan", "blue", "purple", "black",
    "white2", "niconicowhite", "red2", "truered", "pink2", "orange2", "passionorange", "yellow2", "madyellow", "green2",
    "elementalgreen", "cyan2", "blue2", "marineblue", "purple2", "nobleviolet", "black2"]

  const Positions: seq<string> := ["ue", "naka", "shita"]

  const Sizes: seq<string> := ["big", "medium", "small"]

  const AnonymousToken: string := "184"

  /** The record separator the host uses for a line break inside a comment. */
  const RecordSeparator: char := 30 as char

  /** Alternatives of a ` (a|b|...) ` pattern: words without spaces. */
  predicate Vocabulary(alts: seq<string>) {
    forall i | 0 <= i < |alts| :: ' ' !in alts[i]
  }

  lemma VocabulariesHaveNoSpaces()
    ensures Vocabulary(Colors) && Vocabulary(Positions) && Vocabulary(Sizes) && Vocabulary([AnonymousToken])
  {
    ColorWords();
  }

  lemma ColorWords()
    ensures Vocabulary(Colors)
  {
  }

  // ---------------------------------------------------------------------------
  // `Regex.Match(mail, " (a|b|...) ")`

  /** The pattern anchored at the start of `s`: the first alternative that a space follows. */
  function MatchAt(s: string, alts: seq<string>): (r: Option<string>)
    ensures r.Some? ==> r.value in alts && " " + r.value + " " <= s
  {
    if |alts| == 0 then None
    else if " " + alts[0] + " " <= s then Some(alts[0])
    else MatchAt(s, alts[1..])
  }

  /** The leftmost match in `s`, with its captured alternative. */
  function Scan(s: string, alts: seq<string>): (r: Option<string>)
    ensures r.Some? ==> r.value in alts
  {
    if |s| == 0 then None
    else
      match MatchAt(s, alts)
      case Some(a) => Some(a)
      case None => Scan(s[1..], alts)
  }

  /** The first token that is one of the alternatives. */
  function FirstListed(tokens: seq<string>, alts: seq<string>): (r: Option<string>)
    ensures r.Some? ==> r.value in alts && r.value in tokens
    ensures r.None? <==> forall k | 0 <= k < |tokens| :: tokens[k] !in alts
  {
    if |tokens| == 0 then None
    else if tokens[0] in alts then Some(tokens[0])
    else FirstListed(tokens[1..], alts)
  }

  lemma TokenPrefix(a: string, t: string, tail: string)
    requires ' ' !in a && ' ' !in t
    ensures " " + a + " " <= " " + t + " " + tail <==> a == t
  {
    var s := " " + t + " " + tail;
    var p := " " + a + " ";
    if a == t {
      assert s == p + tail;
    } else if |a| < |t| {
      assert p[|a| + 1] != s[|a| + 1];
    } else if |a| > |t| {
      if |p| <= |s| {
        assert p[|t| + 1] != s[|t| + 1];
      }
    } else {
      var i :| 0 <= i < |a| && a[i] != t[i];
      assert p[i + 1] != s[i + 1];
    }
  }

  /** At a space followed by a word and a space, the pattern captures that word if it is listed. */
  lemma {:induction false} MatchAtToken(t: string, tail: string, alts: seq<string>)
    requires Vocabulary(alts) && ' ' !in t
    ensures MatchAt(" " + t + " " + tail, alts) == if t in alts then Some(t) else None
  {
    if |alts| > 0 {
      TokenPrefix(alts[0], t, tail);
      assert Vocabulary(alts[1..]);
      MatchAtToken(t, tail, alts[1..]);
    }
  }

  lemma MatchAtNeedsSpace(s: string, alts: seq<string>)
    requires |s| == 0 || s[0] != ' '
    ensures MatchAt(s, alts) == None
  {
  }

  /** No match starts inside a word. */
  lemma {:induction false} SkipWord(u: string, s: string, alts: seq<string>)
    requires ' ' !in u
    ensures Scan(u + s, alts) == Scan(s, alts)
  {
    if |u| > 0 {
      MatchAtNeedsSpace(u + s, alts);
      assert (u + s)[1..] == u[1..] + s;
      SkipWord(u[1..], s, alts);
    } else {
      assert u + s == s;
    }
  }

  lemma TrailingSpace(alts: seq<string>)
    ensures Scan(" ", alts) == None
  {
    assert " "[1..] == "";
  }

  /** At ` w tail`, the pattern captures `w` if it is listed and otherwise looks on from the next space. */
  lemma ScanWord(w: string, tail: string, alts: seq<string>)
    requires Vocabulary(alts) && ' ' !in w
    ensures Scan(" " + w + " " + tail, alts) == if w in alts then Some(w) else Scan(" " + tail, alts)
  {
    MatchAtToken(w, tail, alts);
    if w !in alts {
      Reassociate(" ", w, " ", tail);
      DropPrefix(" ", w + (" " + tail));
      SkipWord(w, " " + tail, alts);
    }
  }

  lemma FirstListedCons(t: string, more: seq<string>, alts: seq<string>)
    ensures FirstListed([t] + more, alts) == if t in alts then Some(t) else FirstListed(more, alts)
  {
    assert ([t] + more)[1..] == more;
  }

  lemma SpacedWords(t0: string, rest: string)
    ensures " " + (t0 + " " + rest) + " " == " " + t0 + " " + (rest + " ")
  {
  }

  /** On ` text `, the pattern captures the first space-separated token of `text` that is listed. */
  lemma {:induction false} ScanTokens(t: string, alts: seq<string>)
    requires Vocabulary(alts)
    ensures Scan(" " + t + " ", alts) == FirstListed(SplitAll(t, ' '), alts)
    decreases |t|
  {
    var i := IndexOf(t, ' ');
    if i == |t| {
      assert SplitAll(t, ' ') == [t] + [];
      FirstListedCons(t, [], alts);
      AppendEmpty(" " + t + " ");
      ScanWord(t, "", alts);
      AppendEmpty(" ");
      TrailingSpace(alts);
    } else {
      var t0, rest := t[..i], t[i + 1..];
      assert t == t0 + " " + rest;
      assert SplitAll(t, ' ') == [t0] + SplitAll(rest, ' ');
      FirstListedCons(t0, SplitAll(rest, ' '), alts);
      SpacedWords(t0, rest);
      ScanWord(t0, rest + " ", alts);
      Associate(" ", rest, " ");
      ScanTokens(rest, alts);
    }
  }

  // ---------------------------------------------------------------------------
  // The mail field

  datatype Mail = Mail(color: Option<string>, isAnonymous: bool, position: Option<string>, size: Option<string>)

  /** The four pattern matches run on the bracket text padded with a space on each side. */
  function ParseMail(bracket: string): Mail {
    var mail := " " + bracket + " ";
    Mail(Scan(mail, Colors), Scan(mail, [AnonymousToken]).Some?, Scan(mail, Positions), Scan(mail, Sizes))
  }

  /**
   * Colour, position and size are the first token listed in their vocabulary, and the comment is
   * anonymous exactly when one token is `184`; every other token is ignored.
   */
  lemma ParseMailByTokens(bracket: string)
    ensures var tokens := SplitAll(bracket, ' ');
      ParseMail(bracket) == Mail(FirstListed(tokens, Colors), AnonymousToken in tokens,
                                 FirstListed(tokens, Positions), FirstListed(tokens, Sizes))
  {
    var tokens := SplitAll(bracket, ' ');
    VocabulariesHaveNoSpaces();
    ScanTokens(bracket, Colors);
    ScanTokens(bracket, [AnonymousToken]);
    ScanTokens(bracket, Positions);
    ScanTokens(bracket, Sizes);
    if AnonymousToken in tokens {
      var k :| 0 <= k < |tokens| && tokens[k] == AnonymousToken;
      assert tokens[k] in [AnonymousToken];
    }
  }

  // ---------------------------------------------------------------------------
  // The post

  /** `posts[1].Replace('\x1e', '\n')`. */
  function CommentText(body: string): string {
    ReplaceChar(body, RecordSeparator, "\n")
  }

  lemma CommentTextByChar(body: string)
    ensures |CommentText(body)| == |body|
    ensures forall i | 0 <= i < |body| ::
      CommentText(body)[i] == if body[i] == RecordSeparator then '\n' else body[i]
  {
    ReplaceCharByChar(body, RecordSeparator, '\n');
  }

  /** The `data` of the `postComment` message; the handler never sets `font`. */
  datatype PostData = PostData(
    color: Option<string>,
    isAnonymous: bool,
    position: Option<string>,
    size: Option<string>,
    text: string,
    vpos: Int32)

  /**
   * `(int)(serverUnixTime - base) * 100 + elapsed / 10` with the source's 32-bit arithmetic:
   * the narrowing cast, the product and the sum each wrap.
   */
  function Vpos(serverUnixTime: int, baseTime: int, elapsed: Tick): Int32 {
    Wrap32(Wrap32(Wrap32(serverUnixTime - baseTime) * 100) + elapsed / 10)
  }

  /** The local gate: a positive base time the server clock has reached. */
  predicate PostAllowed(baseTime: Option<int>, serverUnixTime: int) {
    baseTime.Some? && baseTime.value > 0 && serverUnixTime >= baseTime.value
  }

  /** A `+[` command: the message to send, or `None` when it is refused locally. */
  function PostCommand(command: string, baseTime: Option<int>, serverUnixTime: int, serverUnixTimeTick: Tick, now: Int32): Option<PostData>
    requires "+[" <= command
  {
    var posts := SplitFirst(command[2..], ']');
    if |posts| == 2 && PostAllowed(baseTime, serverUnixTime) then
      var mail := ParseMail(posts[0]);
      Some(PostData(mail.color, mail.isAnonymous, mail.position, mail.size, CommentText(posts[1]),
                    Vpos(serverUnixTime, baseTime.value, Elapsed(now, serverUnixTimeTick))))
    else None
  }

  /** A post is sent exactly when the command closes its bracket and the gate is open. */
  lemma PostGate(command: string, baseTime: Option<int>, serverUnixTime: int, serverUnixTimeTick: Tick, now: Int32)
    requires "+[" <= command
    ensures PostCommand(command, baseTime, serverUnixTime, serverUnixTimeTick, now).Some?
      <==> ']' in command[2..] && PostAllowed(baseTime, serverUnixTime)
  {
  }

  /** Until the server time is known (it starts at 0), every post is refused. */
  lemma PostNeedsServerTime(command: string, baseTime: Option<int>, serverUnixTime: int, serverUnixTimeTick: Tick, now: Int32)
    requires "+[" <= command
    ensures serverUnixTime <= 0 ==> PostCommand(command, baseTime, serverUnixTime, serverUnixTimeTick, now).None?
  {
  }

  /** What an accepted `+[mail]text` sends, described through the tokens of the mail field. */
  lemma PostFields(bracket: string, body: string, baseTime: int, serverUnixTime: int, serverUnixTimeTick: Tick, now: Int32)
    requires ']' !in bracket && PostAllowed(Some(baseTime), serverUnixTime)
    ensures var tokens := SplitAll(bracket, ' ');
      PostCommand("+[" + bracket + "]" + body, Some(baseTime), serverUnixTime, serverUnixTimeTick, now)
      == Some(PostData(FirstListed(tokens, Colors), AnonymousToken in tokens, FirstListed(tokens, Positions),
                       FirstListed(tokens, Sizes), CommentText(body),
                       Vpos(serverUnixTime, baseTime, Elapsed(now, serverUnixTimeTick))))
  {
    var command := "+[" + bracket + "]" + body;
    assert command[2..] == bracket + [']'] + body;
    var posts := SplitFirst(command[2..], ']');
    SplitAtFirst(bracket, ']', body);
    ParseMailByTokens(bracket);
  }

  lemma SplitAtFirst(a: string, c: char, b: string)
    requires c !in a
    ensures SplitFirst(a + [c] + b, c) == [a, b]
  {
    var s := a + [c] + b;
    IndexOfUnique(s, c, |a|);
    assert s[..|a|] == a;
    assert s[|a| + 1..] == b;
  }

  /**
   * When the value fits in 32 bits, the comment's vpos is the whole seconds since the base time
   * in centiseconds plus the milliseconds since the clock was set, in centiseconds: never negative.
   */
  lemma VposCentiseconds(serverUnixTime: int, baseTime: int, t0: Int32, d: int)
    requires 0 < baseTime <= serverUnixTime && 0 <= d < TickModulus
    requires (serverUnixTime - baseTime) * 100 + d / 10 < 0x8000_0000
    ensures Vpos(serverUnixTime, baseTime, Elapsed(Wrap32(t0 + d), Masked(t0)))
      == (serverUnixTime - baseTime) * 100 + d / 10
    ensures Vpos(serverUnixTime, baseTime, Elapsed(Wrap32(t0 + d), Masked(t0))) >= 0
  {
    ElapsedMeasuresDuration(t0, d);
  }
}

=== FILE: responses.dfy ===
/**
 * The response lines the stream handler writes for comment-room and watch-session messages:
 * `chat`, `thread`, `ping`, the synthesized `x_room` and `chat_result`. Each line kind has a
 * fixed list of attribute slots; an optional slot is left out when the source value is null
 * (or zero, for the numeric flags), and the order of the slots never changes.
 */
module Responses {
  import opened Wrappers
  import opened Strings
  import opened Escape
  import opened Lines
  import opened Messages

  /** One attribute slot of a line kind: its name, and whether every line carries it. */
  datatype Slot = Slot(name: string, required: bool)

  predicate DistinctNames(slots: seq<Slot>) {
    forall i, j | 0 <= i < j < |slots| :: slots[i].name != slots[j].name
  }

  /** Slot names are distinct when some ranking of names puts each slot at its own position. */
  lemma RankedDistinct(slots: seq<Slot>, rank: string -> int)
    requires forall i | 0 <= i < |slots| :: rank(slots[i].name) == i
    ensures DistinctNames(slots)
  {
    forall i, j | 0 <= i < j < |slots|
      ensures slots[i].name != slots[j].name
    {
      assert rank(slots[i].name) != rank(slots[j].name);
    }
  }

  predicate NamedSlots(slots: seq<Slot>) {
    forall i | 0 <= i < |slots| :: IsName(slots[i].name)
  }

  /** A value for every slot, and one for every required slot. */
  predicate Fits(slots: seq<Slot>, values: seq<Option<string>>) {
    |values| == |slots| && forall i | 0 <= i < |slots| :: slots[i].required ==> values[i].Some?
  }

  /** The attributes of a line: the slots in order, each left out when it has no value. */
  function Layout(slots: seq<Slot>, values: seq<Option<string>>): seq<Attr>
    requires |values| == |slots|
  {
    if |slots| == 0 then []
    else
      (if values[0].Some? then [Attr(slots[0].name, values[0].value)] else [])
      + Layout(slots[1..], values[1..])
  }

  /** Reads attributes positionally against the slots; `None` when one is missing, unknown or out of order. */
  function ReadSlots(slots: seq<Slot>, attrs: seq<Attr>): (values: Option<seq<Option<string>>>)
    ensures values.Some? ==> Fits(slots, values.value)
  {
    if |slots| == 0 then
      if |attrs| == 0 then Some([]) else None
    else
      var present := |attrs| > 0 && attrs[0].name == slots[0].name;
      if !present && slots[0].required then None
      else
        match ReadSlots(slots[1..], if present then attrs[1..] else attrs)
        case None => None
        case Some(rest) => Some([if present then Some(attrs[0].value) else None] + rest)
  }

  /** Every attribute of the layout comes from a slot that has a value. */
  lemma {:induction false} LayoutSource(slots: seq<Slot>, values: seq<Option<string>>, k: nat) returns (j: nat)
    requires |values| == |slots| && k < |Layout(slots, values)|
    ensures j < |slots| && values[j].Some?
    ensures Layout(slots, values)[k] == Attr(slots[j].name, values[j].value)
  {
    var head := if values[0].Some? then [Attr(slots[0].name, values[0].value)] else [];
    var tail := Layout(slots[1..], values[1..]);
    assert Layout(slots, values) == head + tail;
    if k < |head| {
      j := 0;
    } else {
      var j' := LayoutSource(slots[1..], values[1..], k - |head|);
      j := j' + 1;
    }
  }

  /** Reading the layout of a fitting set of values gives those values back. */
  lemma {:induction false} ReadLayout(slots: seq<Slot>, values: seq<Option<string>>)
    requires DistinctNames(slots) && Fits(slots, values)
    ensures ReadSlots(slots, Layout(slots, values)) == Some(values)
  {
    if |slots| > 0 {
      var tail := Layout(slots[1..], values[1..]);
      assert DistinctNames(slots[1..]);
      ReadLayout(slots[1..], values[1..]);
      if values[0].Some? {
        assert Layout(slots, values) == [Attr(slots[0].name, values[0].value)] + tail;
        assert (Layout(slots, values))[1..] == tail;
      } else {
        assert Layout(slots, values) == tail;
        if |tail| > 0 {
          var j := LayoutSource(slots[1..], values[1..], 0);
          assert slots[0].name != slots[j + 1].name;
        }
      }
      assert values == [values[0]] + values[1..];
    }
  }

  /** A slot's attribute appears in the layout exactly when the slot has a value. */
  lemma {:induction false} LayoutPresence(slots: seq<Slot>, values: seq<Option<string>>, i: nat)
    requires DistinctNames(slots) && |values| == |slots| && i < |slots|
    ensures (exists k | 0 <= k < |Layout(slots, values)| :: Layout(slots, values)[k].name == slots[i].name)
      <==> values[i].Some?
  {
    var l := Layout(slots, values);
    if values[i].Some? {
      LayoutContains(slots, values, i);
      var k :| 0 <= k < |l| && l[k] == Attr(slots[i].name, values[i].value);
    } else {
      forall k | 0 <= k < |l|
        ensures l[k].name != slots[i].name
      {
        var j := LayoutSource(slots, values, k);
        assert j != i;
      }
    }
  }

  lemma {:induction false} LayoutContains(slots: seq<Slot>, values: seq<Option<string>>, i: nat)
    requires |values| == |slots| && i < |slots| && values[i].Some?
    ensures Attr(slots[i].name, values[i].value) in Layout(slots, values)
  {
    var head := if values[0].Some? then [Attr(slots[0].name, values[0].value)] else [];
    assert Layout(slots, values) == head + Layout(slots[1..], values[1..]);
    if i > 0 {
      LayoutContains(slots[1..], values[1..], i - 1);
    }
  }

  lemma {:induction false} LayoutWellNamed(slots: seq<Slot>, values: seq<Option<string>>)
    requires NamedSlots(slots) && |values| == |slots|
    ensures forall k | 0 <= k < |Layout(slots, values)| :: IsName(Layout(slots, values)[k].name)
  {
    forall k | 0 <= k < |Layout(slots, values)|
      ensures IsName(Layout(slots, values)[k].name)
    {
      var j := LayoutSource(slots, values, k);
    }
  }

  /** An attribute holding a number, written as `long.ToString()` writes it. */
  function Number(n: int): Option<string> {
    Some(IntToString(n))
  }

  /** A numeric flag the source writes only when it is not zero. */
  function NonZero(n: int): Option<string> {
    if n != 0 then Some(IntToString(n)) else None
  }

  function ReadNumber(v: Option<string>): Option<int> {
    if v.None? then None else ParseInt(v.value)
  }

  /** An absent flag reads as zero. */
  function ReadFlag(v: Option<string>): Option<int> {
    if v.None? then Some(0) else ParseInt(v.value)
  }

  lemma ReadNumberFlag(n: int)
    ensures ReadNumber(Number(n)) == Some(n)
    ensures ReadFlag(NonZero(n)) == Some(n)
  {
    ParseIntToString(n);
  }

  /** Numbers are written without escaping in the source; escaping them changes nothing. */
  lemma NumberAttrText(name: string, n: int)
    ensures AttrText(Attr(name, IntToString(n))) == " " + name + "=\"" + IntToString(n) + "\""
  {
    NumberIsPlain(n);
    EncodePlain(IntToString(n), true);
  }

  // ---------------------------------------------------------------------------
  // `chat`

  const ChatSlots: seq<Slot> := [
    Slot("thread", false), Slot("no", true), Slot("vpos", true), Slot("date", true),
    Slot("date_usec", true), Slot("mail", false), Slot("yourpost", false), Slot("user_id", false),
    Slot("premium", false), Slot("anonymity", false)]

  function ChatValues(c: Chat): seq<Option<string>> {
    [c.thread, Number(c.no), Number(c.vpos), Number(c.date), Number(c.dateUsec), c.mail,
     NonZero(c.yourpost), c.userId, NonZero(c.premium), NonZero(c.anonymity)]
  }

  function ChatElement(c: Chat): Element {
    Element("chat", Layout(ChatSlots, ChatValues(c)), Content(c.content.GetOr("")))
  }

  /** The `-<chat ...>text</chat>` line for a comment. */
  function ChatLine(c: Chat): string {
    Render(ChatElement(c))
  }

  /** Reads a `chat` element back into the record. */
  function ChatOf(e: Element): Option<Chat> {
    if e.tag != "chat" || !e.body.Content? then None
    else
      match ReadSlots(ChatSlots, e.attrs)
      case None => None
      case Some(v) =>
        var no, vpos, date, usec := ReadNumber(v[1]), ReadNumber(v[2]), ReadNumber(v[3]), ReadNumber(v[4]);
        var yourpost, premium, anonymity := ReadFlag(v[6]), ReadFlag(v[8]), ReadFlag(v[9]);
        if no.None? || vpos.None? || date.None? || usec.None? || yourpost.None? || premium.None? || anonymity.None? then None
        else Some(Chat(anonymity.value, Some(e.body.text), date.value, usec.value, v[5], no.value,
                       premium.value, v[0], v[7], vpos.value, yourpost.value))
  }

  function ParseChat(line: string): Option<Chat> {
    match ParseLine(line)
    case None => None
    case Some(e) => ChatOf(e)
  }

  /** The position of each chat slot name, a witness that no name repeats. */
  function ChatSlotRank(n: string): int {
    if n == "thread" then 0 else if n == "no" then 1 else if n == "vpos" then 2 else if n == "date" then 3
    else if n == "date_usec" then 4 else if n == "mail" then 5 else if n == "yourpost" then 6
    else if n == "user_id" then 7 else if n == "premium" then 8 else if n == "anonymity" then 9 else -1
  }

  lemma ChatSlotsShape()
    ensures DistinctNames(ChatSlots) && NamedSlots(ChatSlots)
  {
    RankedDistinct(ChatSlots, ChatSlotRank);
    ChatSlotNames();
  }

  lemma ChatSlotNames()
    ensures IsName("thread") && IsName("no") && IsName("vpos") && IsName("date") && IsName("date_usec")
    ensures IsName("mail") && IsName("yourpost") && IsName("user_id") && IsName("premium") && IsName("anonymity")
  {
  }

  /** A chat line is a single line that reads back as the comment, a missing text as the empty one. */
  lemma ChatRoundTrip(c: Chat)
    ensures '\n' !in ChatLine(c) && '\r' !in ChatLine(c)
    ensures ParseChat(ChatLine(c)) == Some(c.(content := Some(c.content.GetOr(""))))
  {
    ChatSlotsShape();
    LayoutWellNamed(ChatSlots, ChatValues(c));
    ParseRender(ChatElement(c));
    ChatOfElement(c);
  }

  lemma ChatOfElement(c: Chat)
    ensures ChatOf(ChatElement(c)) == Some(c.(content := Some(c.content.GetOr(""))))
  {
    ChatSlotsShape();
    ReadLayout(ChatSlots, ChatValues(c));
    ReadNumberFlag(c.no);
    ReadNumberFlag(c.vpos);
    ReadNumberFlag(c.date);
    ReadNumberFlag(c.dateUsec);
    ReadNumberFlag(c.yourpost);
    ReadNumberFlag(c.premium);
    ReadNumberFlag(c.anonymity);
  }

  /** The optional chat attributes appear exactly when the source writes them. */
  lemma ChatOptionalAttrs(c: Chat)
    ensures var attrs := ChatElement(c).attrs;
      && ((exists k | 0 <= k < |attrs| :: attrs[k].name == "thread") <==> c.thread.Some?)
      && ((exists k | 0 <= k < |attrs| :: attrs[k].name == "mail") <==> c.mail.Some?)
      && ((exists k | 0 <= k < |attrs| :: attrs[k].name == "yourpost") <==> c.yourpost != 0)
      && ((exists k | 0 <= k < |attrs| :: attrs[k].name == "user_id") <==> c.userId.Some?)
      && ((exists k | 0 <= k < |attrs| :: attrs[k].name == "premium") <==> c.premium != 0)
      && ((exists k | 0 <= k < |attrs| :: attrs[k].name == "anonymity") <==> c.anonymity != 0)
  {
    ChatSlotsShape();
    var v := ChatValues(c);
    LayoutPresence(ChatSlots, v, 0);
    LayoutPresence(ChatSlots, v, 5);
    LayoutPresence(ChatSlots, v, 6);
    LayoutPresence(ChatSlots, v, 7);
    LayoutPresence(ChatSlots, v, 8);
    LayoutPresence(ChatSlots, v, 9);
  }

  // ---------------------------------------------------------------------------
  // `thread`

  const ThreadSlots: seq<Slot> := [
    Slot("resultcode", true), Slot("thread", false), Slot("revision", true),
    Slot("server_time", true), Slot("last_res", true), Slot("ticket", false)]

  function ThreadValues(t: Thread): seq<Option<string>> {
    [Number(t.resultCode), t.thread, Number(t.revision), Number(t.serverTime), Number(t.lastRes), t.ticket]
  }

  function ThreadElement(t: Thread): Element {
    Element("thread", Layout(ThreadSlots, ThreadValues(t)), Content(t.content.GetOr("")))
  }

  /** The `-<thread ...>text</thread>` line for a thread result. */
  function ThreadLine(t: Thread): string {
    Render(ThreadElement(t))
  }

  function ThreadOf(e: Element): Option<Thread> {
    if e.tag != "thread" || !e.body.Content? then None
    else
      match ReadSlots(ThreadSlots, e.attrs)
      case None => None
      case Some(v) =>
        var resultCode, revision, serverTime, lastRes := ReadNumber(v[0]), ReadNumber(v[2]), ReadNumber(v[3]), ReadNumber(v[4]);
        if resultCode.None? || revision.None? || serverTime.None? || lastRes.None? then None
        else Some(Thread(Some(e.body.text), lastRes.value, resultCode.value, revision.value, serverTime.value, v[1], v[5]))
  }

  function ParseThread(line: string): Option<Thread> {
    match ParseLine(line)
    case None => None
    case Some(e) => ThreadOf(e)
  }

  function ThreadSlotRank(n: string): int {
    if n == "resultcode" then 0 else if n == "thread" then 1 else if n == "revision" then 2
    else if n == "server_time" then 3 else if n == "last_res" then 4 else if n == "ticket" then 5 else -1
  }

  lemma ThreadSlotsShape()
    ensures DistinctNames(ThreadSlots) && NamedSlots(ThreadSlots)
  {
    RankedDistinct(ThreadSlots, ThreadSlotRank);
    ThreadSlotNames();
  }

  lemma ThreadSlotNames()
    ensures IsName("resultcode") && IsName("thread") && IsName("revision") && IsName("server_time") && IsName("last_res") && IsName("ticket")
  {
  }

  /** A thread line is a single line that reads back as the thread result. */
  lemma ThreadRoundTrip(t: Thread)
    ensures '\n' !in ThreadLine(t) && '\r' !in ThreadLine(t)
    ensures ParseThread(ThreadLine(t)) == Some(t.(content := Some(t.content.GetOr(""))))
  {
    ThreadSlotsShape();
    LayoutWellNamed(ThreadSlots, ThreadValues(t));
    ParseRender(ThreadElement(t));
    ThreadOfElement(t);
  }

  lemma ThreadOfElement(t: Thread)
    ensures ThreadOf(ThreadElement(t)) == Some(t.(content := Some(t.content.GetOr(""))))
  {
    ThreadSlotsShape();
    ReadLayout(ThreadSlots, ThreadValues(t));
    ReadNumberFlag(t.resultCode);
    ReadNumberFlag(t.revision);
    ReadNumberFlag(t.serverTime);
    ReadNumberFlag(t.lastRes);
  }

  // ---------------------------------------------------------------------------
  // `ping`

  function PingElement(p: ContentContainer): Element {
    Element("ping", [], Content(p.content.GetOr("")))
  }

  /** The `-<ping>text</ping>` line. */
  function PingLine(p: ContentContainer): string {
    Render(PingElement(p))
  }

  function ParsePing(line: string): Option<string> {
    match ParseLine(line)
    case None => None
    case Some(e) => if e.tag == "ping" && e.attrs == [] && e.body.Content? then Some(e.body.text) else None
  }

  lemma PingRoundTrip(p: ContentContainer)
    ensures '\n' !in PingLine(p) && '\r' !in PingLine(p)
    ensures ParsePing(PingLine(p)) == Some(p.content.GetOr(""))
  {
    ParseRender(PingElement(p));
  }

  // ---------------------------------------------------------------------------
  // `x_room`, synthesized from the watch session's `room` message and the page's user.

  const RoomSlots: seq<Slot> := [
    Slot("thread_id", false), Slot("your_post_key", false), Slot("user_id", false),
    Slot("nickname", false), Slot("is_logged_in", false)]

  function RoomValues(room: Room, user: Option<User>): seq<Option<string>> {
    [room.threadId, room.yourPostKey,
     if user.Some? then user.value.id else None,
     if user.Some? then user.value.nickname else None,
     if user.Some? && user.value.isLoggedIn then Some("1") else None]
  }

  function RoomElement(room: Room, user: Option<User>): Element {
    Element("x_room", Layout(RoomSlots, RoomValues(room, user)), SelfClosing)
  }

  /** The `-<x_room ... />` line. */
  function RoomLine(room: Room, user: Option<User>): string {
    Render(RoomElement(room, user))
  }

  /** What an `x_room` line tells the host. */
  datatype RoomInfo = RoomInfo(
    threadId: Option<string>,
    yourPostKey: Option<string>,
    userId: Option<string>,
    nickname: Option<string>,
    isLoggedIn: bool)

  function RoomOf(e: Element): Option<RoomInfo> {
    if e.tag != "x_room" || !e.body.SelfClosing? then None
    else
      match ReadSlots(RoomSlots, e.attrs)
      case None => None
      case Some(v) => Some(RoomInfo(v[0], v[1], v[2], v[3], v[4] == Some("1")))
  }

  function ParseRoom(line: string): Option<RoomInfo> {
    match ParseLine(line)
    case None => None
    case Some(e) => RoomOf(e)
  }

  function RoomSlotRank(n: string): int {
    if n == "thread_id" then 0 else if n == "your_post_key" then 1 else if n == "user_id" then 2
    else if n == "nickname" then 3 else if n == "is_logged_in" then 4 else -1
  }

  lemma RoomSlotsShape()
    ensures DistinctNames(RoomSlots) && NamedSlots(RoomSlots)
  {
    RankedDistinct(RoomSlots, RoomSlotRank);
    RoomSlotNames();
  }

  lemma RoomSlotNames()
    ensures IsName("thread_id") && IsName("your_post_key") && IsName("user_id") && IsName("nickname") && IsName("is_logged_in")
  {
  }

  /** An `x_room` line reads back as the room's ids and the page user's id, nickname and login state. */
  lemma RoomRoundTrip(room: Room, user: Option<User>)
    ensures '\n' !in RoomLine(room, user) && '\r' !in RoomLine(room, user)
    ensures ParseRoom(RoomLine(room, user)) == Some(RoomInfo(
      room.threadId, room.yourPostKey,
      if user.Some? then user.value.id else None,
      if user.Some? then user.value.nickname else None,
      user.Some? && user.value.isLoggedIn))
  {
    RoomSlotsShape();
    LayoutWellNamed(RoomSlots, RoomValues(room, user));
    ParseRender(RoomElement(room, user));
    RoomOfElement(room, user);
  }

  lemma RoomOfElement(room: Room, user: Option<User>)
    ensures RoomOf(RoomElement(room, user)) == Some(RoomInfo(
      room.threadId, room.yourPostKey,
      if user.Some? then user.value.id else None,
      if user.Some? then user.value.nickname else None,
      user.Some? && user.value.isLoggedIn))
  {
    RoomSlotsShape();
    ReadLayout(RoomSlots, RoomValues(room, user));
  }

  // ---------------------------------------------------------------------------
  // `chat_result`, the outcome of a post.

  lemma Regroup(head: string, open: string, n: string, close: string, tail: string)
    ensures head + (open + n + close) + tail == (head + open) + n + (close + tail)
  {
  }

  /** `-<chat_result status="n" />`: 0 accepted, 1 rejected, 4 posting not permitted. */
  function ChatResultLine(status: int): string {
    Render(Element("chat_result", [Attr("status", IntToString(status))], SelfClosing))
  }

  lemma ChatResultWire(n: string)
    requires Plain(n) && SingleLine(n)
    ensures Render(Element("chat_result", [Attr("status", n)], SelfClosing))
      == "-<" + "chat_result" + (" " + "status" + "=\"" + n + "\"") + " />"
  {
    var a := Attr("status", n);
    var e := Element("chat_result", [a], SelfClosing);
    assert WellFormed(e);
    RenderIsWire(e);
    WirePlain(n, true);
    assert [a][1..] == [];
    assert AttrsWire(e.attrs) == AttrWire(a);
  }

  lemma ChatResultLiterals()
    ensures ("-<" + "chat_result") + (" " + "status" + "=\"") == "-<chat_result status=\""
    ensures "\"" + " />" == "\" />"
  {
  }

  /** The status is written as plain digits, exactly as the source formats it. */
  lemma ChatResultText(status: int)
    ensures ChatResultLine(status) == "-<chat_result status=\"" + IntToString(status) + "\" />"
  {
    var n := IntToString(status);
    NumberIsPlain(status);
    ChatResultWire(n);
    ChatResultLiterals();
    Regroup("-<" + "chat_result", " " + "status" + "=\"", n, "\"", " />");
  }

  /** The three results the handler writes as literals. */
  lemma ChatResultLiterals014()
    ensures ChatResultLine(0) == "-<chat_result status=\"" + "0" + "\" />"
    ensures ChatResultLine(1) == "-<chat_result status=\"" + "1" + "\" />"
    ensures ChatResultLine(4) == "-<chat_result status=\"" + "4" + "\" />"
  {
    ChatResultText(0);
    ChatResultText(1);
    ChatResultText(4);
  }
}

=== FILE: session.dfy ===
/**
 * The stream handler as a state machine. The handler waits on three things at once — a 200 ms
 * poll of the queued host commands, a frame from the watch socket and, once connected, a frame
 * from the comment-room socket — and handles whichever completes. Each `Step` is one pass of its
 * inner loop: the keep-alive check, then one event. Sockets, the page fetch and JSON decoding are
 * outside the model: frames arrive with their decoded message, and what the handler sends,
 * connects, closes or prints is returned as a list of effects.
 */
module Session {
  import opened Wrappers
  import opened Strings
  import opened Messages
  import opened Clock
  import opened Responses
  import opened Posting
  import opened Validate

  /** The size of each receive buffer; a message must stay strictly below it. */
  const MaxPayload: nat := 32768

  datatype Phase = Running | Closed | Failed

  datatype State = State(
    vposBaseTime: Option<int>,
    user: Option<User>,
    keepSeatIntervalSec: int,
    keepSeatTick: Tick,
    commentKeepTick: Tick,
    watchCount: nat,
    commentCount: nat,
    commentConnected: bool,
    serverUnixTime: int,
    serverUnixTimeTick: Tick,
    phase: Phase)

  /** The counters the handler declares before its loop, for an accepted session descriptor. */
  function Init(e: Embedded): State {
    State(e.vposBaseTime, e.user, 0, 0, 0, 0, 0, false, 0, 0, Running)
  }

  /** What a finished call leaves behind when it never got as far as a session. */
  function NotStarted(): State {
    State(None, None, 0, 0, 0, 0, 0, false, 0, 0, Failed)
  }

  /** A received WebSocket fragment: whether it is a text frame, its byte count, and whether it ends the message. */
  datatype Frame = Frame(isText: bool, count: nat, endOfMessage: bool)

  datatype Event =
    | Poll(commands: seq<string>)
    | WatchFrame(frame: Frame, watchMessage: WatchMsg)
    | CommentFrame(frame: Frame, commentMessage: CommentMsg)
    | Fault

  /** One element of the comment room's opening message. */
  datatype OpenItem =
    | PingItem(content: string)
    | ThreadItem(thread: string, threadKey: Option<string>, userId: string,
                 nicoru: int, resFrom: int, scores: int, version: string, withGlobal: int)

  datatype WatchSend = StartWatching | KeepSeat | Pong | PostComment(data: PostData)

  datatype CommentSend = KeepAliveFrame | Open(items: seq<OpenItem>)

  datatype Effect =
    | Emit(line: string)
    | ConnectWatch(watchUri: string)
    | ToWatch(watchSend: WatchSend)
    | ConnectComment(commentUri: string)
    | ToComment(commentSend: CommentSend)
    | CloseComment
    | CloseWatch

  /** The next state, the effects in order, and the queued commands left for the host loop. */
  datatype Outcome = Outcome(next: State, effects: seq<Effect>, unconsumed: seq<string>)

  predicate IsKeepAlive(e: Effect) {
    e == ToWatch(KeepSeat) || e == ToComment(KeepAliveFrame)
  }

  predicate NoKeepAlive(effects: seq<Effect>) {
    forall k | 0 <= k < |effects| :: !IsKeepAlive(effects[k])
  }

  predicate NoConnect(effects: seq<Effect>) {
    forall k | 0 <= k < |effects| :: !effects[k].ConnectComment?
  }

  predicate NoPost(effects: seq<Effect>) {
    forall k | 0 <= k < |effects| :: !(effects[k].ToWatch? && effects[k].watchSend.PostComment?)
  }

  predicate OnlyLines(effects: seq<Effect>) {
    forall k | 0 <= k < |effects| :: effects[k].Emit?
  }

  /** What every reachable running state satisfies. */
  predicate Valid(s: State) {
    && s.watchCount < MaxPayload
    && s.commentCount < MaxPayload
    && (!s.commentConnected ==> s.commentCount == 0)
    && s.keepSeatIntervalSec <= MaxSeatIntervalSec
  }

  // ---------------------------------------------------------------------------
  // Starting

  /**
   * The start of `L`: the id must match the broadcast-id pattern and the page must yield a
   * descriptor with an acceptable socket URL (`page` is `None` when fetching or scraping failed).
   * Otherwise the call prints `!` and ends.
   */
  function Begin(lvId: string, page: Option<Embedded>): (o: Outcome)
    ensures o.next.phase == Running ==> Valid(o.next)
    ensures o.next.phase == Running ==>
      |o.effects| == 2 && o.effects[0].ConnectWatch? && o.effects[1] == ToWatch(StartWatching)
    ensures o.next.phase != Running ==> o.effects == [Emit("!")]
  {
    if MatchesIdPattern(lvId) && page.Some? && EmbeddedAccepted(page.value) then
      Outcome(Init(page.value), [ConnectWatch(SocketUrl(page.value)), ToWatch(StartWatching)], [])
    else
      Outcome(NotStarted(), [Emit("!")], [])
  }

  /** A stream starts exactly for a well-formed id and an accepted page, and otherwise reports failure. */
  lemma BeginOutcome(lvId: string, page: Option<Embedded>)
    ensures Begin(lvId, page).next.phase == Running
      <==> IsBroadcastId(lvId) && page.Some? && EmbeddedAccepted(page.value)
    ensures Begin(lvId, page).next.phase != Running ==> Begin(lvId, page).effects == [Emit("!")]
    ensures Begin(lvId, page).next.phase == Running ==>
      Begin(lvId, page).effects[0].ConnectWatch? && IsServiceSocketUrl(Begin(lvId, page).effects[0].watchUri)
    ensures IsBroadcastId(lvId) && page.Some? && EmbeddedAccepted(page.value) ==>
      && Begin(lvId, page).next == Init(page.value)
      && Begin(lvId, page).effects == [ConnectWatch(SocketUrl(page.value)), ToWatch(StartWatching)]
  {
    BroadcastIdPattern(lvId);
  }

  // ---------------------------------------------------------------------------
  // Keep-alives

  /** The keep-alive check before each wait sends exactly the keep-alive that is due, if any. */
  function KeepAliveStep(s: State, now: Int32): (o: Outcome)
    ensures |o.effects| <= 1 && o.unconsumed == []
    ensures o.next == s.(keepSeatTick := o.next.keepSeatTick, commentKeepTick := o.next.commentKeepTick)
    ensures var due := KeepAliveDue(s.keepSeatIntervalSec, s.keepSeatTick, s.commentConnected, s.commentKeepTick, now);
      && (due == SendKeepSeat <==> o.effects == [ToWatch(KeepSeat)])
      && (due == SendCommentKeep <==> o.effects == [ToComment(KeepAliveFrame)])
      && (due.NoKeepAlive? <==> o.effects == [])
  {
    match KeepAliveDue(s.keepSeatIntervalSec, s.keepSeatTick, s.commentConnected, s.commentKeepTick, now)
    case SendKeepSeat => Outcome(s.(keepSeatTick := Masked(now)), [ToWatch(KeepSeat)], [])
    case SendCommentKeep => Outcome(s.(commentKeepTick := Masked(now)), [ToComment(KeepAliveFrame)], [])
    case NoKeepAlive => Outcome(s, [], [])
  }

  /** A keep-alive resets its own tick and nothing else; the comment room only gets one while connected. */
  lemma KeepAliveResetsOwnTick(s: State, now: Int32)
    ensures var o := KeepAliveStep(s, now);
      && (o.effects == [ToWatch(KeepSeat)] ==> o.next == s.(keepSeatTick := Masked(now)) && s.keepSeatIntervalSec > 0)
      && (o.effects == [ToComment(KeepAliveFrame)] ==> o.next == s.(commentKeepTick := Masked(now)) && s.commentConnected)
      && (o.effects == [] ==> o.next == s)
      && (o.effects == [] || o.effects == [ToWatch(KeepSeat)] || o.effects == [ToComment(KeepAliveFrame)])
  {
  }

  // ---------------------------------------------------------------------------
  // Closing

  /** Closing both sockets after `c` or a frame the handler cannot take, then `.`. */
  function Shutdown(s: State): (effects: seq<Effect>)
    ensures |effects| >= 2 && effects[|effects| - 1] == Emit(".") && effects[|effects| - 2] == CloseWatch
    ensures CloseComment in effects <==> s.commentConnected
    ensures NoKeepAlive(effects) && NoConnect(effects) && NoPost(effects)
  {
    (if s.commentConnected then [CloseComment] else []) + [CloseWatch, Emit(".")]
  }

  function Close(s: State): Outcome {
    Outcome(s.(phase := Closed), Shutdown(s), [])
  }

  // ---------------------------------------------------------------------------
  // Host commands

  predicate IsClose(comm: string) {
    |comm| > 0 && comm[0] == 'c'
  }

  predicate IsPost(comm: string) {
    "+[" <= comm
  }

  /** A post is sent, or refused on the spot with status 1. */
  function PostEffects(s: State, comm: string, now: Int32): (effects: seq<Effect>)
    requires IsPost(comm)
    ensures |effects| == 1 && NoKeepAlive(effects) && NoConnect(effects)
    ensures effects[0].ToWatch? <==> ']' in comm[2..] && PostAllowed(s.vposBaseTime, s.serverUnixTime)
    ensures effects[0].ToWatch? ==>
      effects[0] == ToWatch(PostComment(PostCommand(comm, s.vposBaseTime, s.serverUnixTime, s.serverUnixTimeTick, now).value))
    ensures !effects[0].ToWatch? ==> effects == [Emit(ChatResultLine(1))]
    ensures s.serverUnixTime <= 0 ==> effects == [Emit(ChatResultLine(1))]
  {
    PostNeedsServerTime(comm, s.vposBaseTime, s.serverUnixTime, s.serverUnixTimeTick, now);
    PostGate(comm, s.vposBaseTime, s.serverUnixTime, s.serverUnixTimeTick, now);
    PostAnswer(PostCommand(comm, s.vposBaseTime, s.serverUnixTime, s.serverUnixTimeTick, now))
  }

  /** The post goes to the watch session, or status 1 is printed. */
  function PostAnswer(data: Option<PostData>): (effects: seq<Effect>)
    ensures |effects| == 1 && NoKeepAlive(effects) && NoConnect(effects)
    ensures data.None? ==> effects == [Emit(ChatResultLine(1))]
    ensures data.Some? ==> effects == [ToWatch(PostComment(data.value))]
  {
    match data
    case Some(d) => [ToWatch(PostComment(d))]
    case None => [Emit(ChatResultLine(1))]
  }

  lemma AppendKeepsQuiet(a: seq<Effect>, b: seq<Effect>)
    ensures NoKeepAlive(a) && NoKeepAlive(b) ==> NoKeepAlive(a + b)
    ensures NoConnect(a) && NoConnect(b) ==> NoConnect(a + b)
    ensures NoPost(a) && NoPost(b) ==> NoPost(a + b)
  {
    forall k | |a| <= k < |a + b|
      ensures (a + b)[k] == b[k - |a|]
    {
    }
  }

  /** Takes queued commands in order until the queue is empty or a `c` closes the session. */
  function Drain(s: State, commands: seq<string>, now: Int32): (o: Outcome)
    ensures o.next == s || o.next == s.(phase := Closed)
    ensures |commands| > 0 && IsPost(commands[0]) ==> |o.effects| > 0 && o.effects[0] == PostEffects(s, commands[0], now)[0]
    ensures NoKeepAlive(o.effects) && NoConnect(o.effects)
    ensures s.serverUnixTime <= 0 ==> NoPost(o.effects)
    decreases |commands|
  {
    if |commands| == 0 then Outcome(s, [], [])
    else if IsClose(commands[0]) then Outcome(s.(phase := Closed), Shutdown(s), commands[1..])
    else
      var here := if IsPost(commands[0]) then PostEffects(s, commands[0], now) else [];
      var rest := Drain(s, commands[1..], now);
      AppendKeepsQuiet(here, rest.effects);
      Outcome(rest.next, here + rest.effects, rest.unconsumed)
  }

  function CountPosts(commands: seq<string>): nat {
    if |commands| == 0 then 0 else (if IsPost(commands[0]) then 1 else 0) + CountPosts(commands[1..])
  }

  /** Without a `c`, every command is taken, nothing changes, and each `+[` gets exactly one effect. */
  lemma {:induction false} DrainCount(s: State, commands: seq<string>, now: Int32)
    requires forall k | 0 <= k < |commands| :: !IsClose(commands[k])
    ensures Drain(s, commands, now).next == s
    ensures Drain(s, commands, now).unconsumed == []
    ensures |Drain(s, commands, now).effects| == CountPosts(commands)
    decreases |commands|
  {
    if |commands| > 0 {
      DrainCount(s, commands[1..], now);
    }
  }

  /**
   * Without a `c`, every command is taken and nothing changes; the effects are those of the `+[`
   * commands, one each, in queue order.
   */
  lemma DrainWithoutClose(s: State, commands: seq<string>, now: Int32)
    requires forall k | 0 <= k < |commands| :: !IsClose(commands[k])
    ensures Drain(s, commands, now).next == s
    ensures Drain(s, commands, now).unconsumed == []
    ensures |Drain(s, commands, now).effects| == CountPosts(commands)
    ensures forall k | 0 <= k < |commands| && IsPost(commands[k]) ::
      && CountPosts(commands[..k]) < |Drain(s, commands, now).effects|
      && Drain(s, commands, now).effects[CountPosts(commands[..k])] == PostEffects(s, commands[k], now)[0]
  {
    DrainCount(s, commands, now);
    forall k | 0 <= k < |commands| && IsPost(commands[k])
      ensures CountPosts(commands[..k]) < |Drain(s, commands, now).effects|
      ensures Drain(s, commands, now).effects[CountPosts(commands[..k])] == PostEffects(s, commands[k], now)[0]
    {
      DrainPosts(s, commands, now, k);
    }
  }

  /**
   * Commands taken in two polls give what one poll of them all gives, as long as the first poll
   * holds no `c`.
   */
  lemma {:induction false} DrainAppend(s: State, a: seq<string>, b: seq<string>, now: Int32)
    requires forall k | 0 <= k < |a| :: !IsClose(a[k])
    ensures Drain(s, a + b, now).effects == Drain(s, a, now).effects + Drain(s, b, now).effects
    ensures Drain(s, a + b, now).next == Drain(s, b, now).next
    ensures Drain(s, a + b, now).unconsumed == Drain(s, b, now).unconsumed
    decreases |a|
  {
    if |a| == 0 {
      assert a + b == b;
    } else {
      HeadTail(a, b);
      DrainAppend(s, a[1..], b, now);
      DrainCons(s, a + b, now);
      DrainCons(s, a, now);
      var here := if IsPost(a[0]) then PostEffects(s, a[0], now) else [];
      AssociateEffects(here, Drain(s, a[1..], now).effects, Drain(s, b, now).effects);
    }
  }

  /** The `+[` command at queue position `k` produces the effect after those of the posts before it. */
  lemma DrainPosts(s: State, commands: seq<string>, now: Int32, k: nat)
    requires forall j | 0 <= j < |commands| :: !IsClose(commands[j])
    requires k < |commands| && IsPost(commands[k])
    ensures CountPosts(commands[..k]) < |Drain(s, commands, now).effects|
    ensures Drain(s, commands, now).effects[CountPosts(commands[..k])] == PostEffects(s, commands[k], now)[0]
  {
    var before, after := commands[..k], commands[k..];
    assert commands == before + after;
    assert after[0] == commands[k];
    DrainCount(s, before, now);
    DrainAppend(s, before, after, now);
    DrainCons(s, after, now);
  }

  lemma DrainCons(s: State, commands: seq<string>, now: Int32)
    requires |commands| > 0 && !IsClose(commands[0])
    ensures Drain(s, commands, now).effects
      == (if IsPost(commands[0]) then PostEffects(s, commands[0], now) else []) + Drain(s, commands[1..], now).effects
    ensures Drain(s, commands, now).next == Drain(s, commands[1..], now).next
    ensures Drain(s, commands, now).unconsumed == Drain(s, commands[1..], now).unconsumed
  {
  }

  lemma HeadTail(a: seq<string>, b: seq<string>)
    requires |a| > 0
    ensures |a + b| > 0 && (a + b)[0] == a[0] && (a + b)[1..] == a[1..] + b
  {
  }

  lemma AssociateEffects(x: seq<Effect>, y: seq<Effect>, z: seq<Effect>)
    ensures x + (y + z) == (x + y) + z
  {
  }

  /** `c` closes both sockets (the comment room only if connected), prints `.` and leaves the rest queued. */
  lemma DrainClose(s: State, before: seq<string>, comm: string, after: seq<string>, now: Int32)
    requires IsClose(comm)
    requires forall k | 0 <= k < |before| :: !IsClose(before[k])
    ensures Drain(s, before + [comm] + after, now).next == s.(phase := Closed)
    ensures Drain(s, before + [comm] + after, now).unconsumed == after
    ensures var effects := Drain(s, before + [comm] + after, now).effects;
      && |effects| == CountPosts(before) + |Shutdown(s)|
      && effects[..CountPosts(before)] == Drain(s, before, now).effects
      && effects[CountPosts(before)..] == Shutdown(s)
    decreases |before|
  {
    var commands := before + [comm] + after;
    if |before| == 0 {
      assert commands == [comm] + after;
    } else {
      ConsTail(before, comm, after);
      DrainClose(s, before[1..], comm, after, now);
      var here := if IsPost(before[0]) then PostEffects(s, before[0], now) else [];
      var rest := Drain(s, commands[1..], now);
      assert Drain(s, commands, now) == Outcome(rest.next, here + rest.effects, rest.unconsumed);
      assert CountPosts(before) == |here| + CountPosts(before[1..]);
      assert Drain(s, before, now).effects == here + Drain(s, before[1..], now).effects;
      SliceAfter(here, rest.effects, CountPosts(before[1..]));
    }
  }

  lemma ConsTail(before: seq<string>, comm: string, after: seq<string>)
    requires |before| > 0
    ensures (before + [comm] + after)[0] == before[0]
    ensures (before + [comm] + after)[1..] == before[1..] + [comm] + after
  {
  }

  lemma SliceAfter(a: seq<Effect>, b: seq<Effect>, m: nat)
    requires m <= |b|
    ensures (a + b)[|a| + m..] == b[m..]
    ensures (a + b)[..|a| + m] == a + b[..m]
  {
  }

  /** A post the gate refuses prints exactly `-<chat_result status="1" />` and sends nothing. */
  lemma RefusedPost(s: State, comm: string, now: Int32)
    requires IsPost(comm)
    requires !PostAllowed(s.vposBaseTime, s.serverUnixTime) || ']' !in comm[2..]
    ensures PostEffects(s, comm, now) == [Emit("-<chat_result status=\"" + "1" + "\" />")]
  {
    PostGate(comm, s.vposBaseTime, s.serverUnixTime, s.serverUnixTimeTick, now);
    ChatResultLiterals014();
  }

  /** An accepted `+[mail]text` sends one `postComment` built from the mail tokens, the body and the vpos. */
  lemma AcceptedPost(s: State, bracket: string, body: string, now: Int32)
    requires ']' !in bracket && PostAllowed(s.vposBaseTime, s.serverUnixTime)
    ensures var tokens := SplitAll(bracket, ' ');
      PostEffects(s, "+[" + bracket + "]" + body, now)
      == [ToWatch(PostComment(PostData(FirstListed(tokens, Colors), AnonymousToken in tokens, FirstListed(tokens, Positions),
                                       FirstListed(tokens, Sizes), CommentText(body),
                                       Vpos(s.serverUnixTime, s.vposBaseTime.value, Elapsed(now, s.serverUnixTimeTick)))))]
  {
    PostFields(bracket, body, s.vposBaseTime.value, s.serverUnixTime, s.serverUnixTimeTick, now);
  }

  // ---------------------------------------------------------------------------
  // Watch-session messages

  /** The `chat_result` status reported for an error code: 1 for a rejected post, 4 for posting not permitted. */
  function ErrorStatus(error: Option<ErrorData>): (status: Option<int>)
    ensures status.Some? <==> error.Some? && error.value.code in {Some("INVALID_MESSAGE"), Some("COMMENT_POST_NOT_ALLOWED")}
  {
    if error.None? then None
    else if error.value.code == Some("INVALID_MESSAGE") then Some(1)
    else if error.value.code == Some("COMMENT_POST_NOT_ALLOWED") then Some(4)
    else None
  }

  /** A `room` names a comment room to join: a thread id and a message-server URI starting with `wss://`. */
  predicate Joinable(room: Room) {
    && room.threadId.Some?
    && room.messageServer.Some?
    && room.messageServer.value.uri.Some?
    && Scheme <= room.messageServer.value.uri.value
  }

  /** The comment room to join: the message server's own URI, exactly when the room is joinable. */
  function CommentServer(room: Room): (uri: Option<string>)
    ensures uri.Some? <==> Joinable(room)
    ensures uri.Some? ==> uri == room.messageServer.value.uri && Scheme <= uri.value
  {
    if Joinable(room) then room.messageServer.value.uri else None
  }

  /** The opening message: `rs`, `ps`, the thread request, `pf`, `rf`. */
  function Handshake(threadId: string, room: Room, user: Option<User>): seq<OpenItem> {
    var userId := if user.Some? && user.value.id.Some? then user.value.id.value else "guest";
    [PingItem("rs: 0"), PingItem("ps: 0"),
     ThreadItem(threadId, room.yourPostKey, userId, 0, -10, 1, "20061206", 1),
     PingItem("pf: 0"), PingItem("rf: 0")]
  }

  /** A `room` while no comment room is joined: print `x_room`, and join the comment room if it names one. */
  function RoomStep(s: State, room: Room, now: Int32): (o: Outcome)
    requires !s.commentConnected
    ensures NoKeepAlive(o.effects) && NoPost(o.effects) && o.unconsumed == [] && o.next.phase == s.phase
  {
    var line := RoomLine(room, s.user);
    match CommentServer(room)
    case None => Outcome(s, [Emit(line)], [])
    case Some(uri) =>
      Outcome(s.(commentConnected := true, commentKeepTick := Masked(now)),
              [Emit(line), ConnectComment(uri), ToComment(Open(Handshake(room.threadId.value, room, s.user)))], [])
  }

  function DispatchWatch(s: State, msg: WatchMsg, now: Int32): (o: Outcome)
    ensures NoKeepAlive(o.effects) && NoPost(o.effects) && o.unconsumed == []
    ensures o.next.phase == s.phase
    ensures s.commentConnected || !msg.RoomMsg? ==> NoConnect(o.effects) && o.next.commentConnected == s.commentConnected
  {
    match msg
    case ErrorMsg(error) =>
      Outcome(s, if ErrorStatus(error).Some? then [Emit(ChatResultLine(ErrorStatus(error).value))] else [], [])
    case PingMsg => Outcome(s, [ToWatch(Pong)], [])
    case PostCommentResultMsg => Outcome(s, [Emit(ChatResultLine(0))], [])
    case RoomMsg(room) =>
      if s.commentConnected || room.None? then Outcome(s, [], []) else RoomStep(s, room.value, now)
    case SeatMsg(seat) =>
      if seat.None? then Outcome(s, [], [])
      else
        var interval := if seat.value.keepIntervalSec < MaxSeatIntervalSec then seat.value.keepIntervalSec else MaxSeatIntervalSec;
        Outcome(s.(keepSeatIntervalSec := interval, keepSeatTick := Masked(now)), [], [])
    case OtherMsg(_) => Outcome(s, [], [])
  }

  /** A watch-socket fragment: buffer it, dispatch a complete message, or close on one that cannot be taken. */
  function WatchStep(s: State, frame: Frame, msg: WatchMsg, now: Int32): (o: Outcome)
    ensures NoKeepAlive(o.effects) && NoPost(o.effects) && o.unconsumed == []
    ensures s.commentConnected ==> NoConnect(o.effects) && o.next.commentConnected
    ensures frame.isText && s.watchCount + frame.count < MaxPayload && frame.endOfMessage ==>
      o == DispatchWatch(s.(watchCount := 0), msg, now)
  {
    if !frame.isText || s.watchCount + frame.count >= MaxPayload then Close(s)
    else if !frame.endOfMessage then Outcome(s.(watchCount := s.watchCount + frame.count), [], [])
    else DispatchWatch(s.(watchCount := 0), msg, now)
  }

  // ---------------------------------------------------------------------------
  // Comment-room messages

  /** A complete comment-room message prints its lines, and a `thread` in it sets the server clock. */
  function DispatchComment(s: State, msg: CommentMsg, now: Int32): (o: Outcome)
    ensures o.effects == CommentOutput(msg) && o.unconsumed == []
    ensures msg.thread.Some? ==>
      o.next.serverUnixTime == msg.thread.value.serverTime && o.next.serverUnixTimeTick == Masked(now)
    ensures msg.thread.None? ==> o.next == s
    ensures o.next.(serverUnixTime := s.serverUnixTime, serverUnixTimeTick := s.serverUnixTimeTick) == s
  {
    Outcome(ThreadClock(s, msg.thread, now), CommentOutput(msg), [])
  }

  /** The lines a comment-room message prints: its chat, ping and thread, those present, in that order. */
  function CommentOutput(msg: CommentMsg): (effects: seq<Effect>)
    ensures |effects| == Flag(msg.chat.Some?) + Flag(msg.ping.Some?) + Flag(msg.thread.Some?)
    ensures OnlyLines(effects)
    ensures msg.chat.Some? ==> effects[0] == Emit(ChatLine(msg.chat.value))
    ensures msg.ping.Some? ==> effects[Flag(msg.chat.Some?)] == Emit(PingLine(msg.ping.value))
    ensures msg.thread.Some? ==> effects[|effects| - 1] == Emit(ThreadLine(msg.thread.value))
  {
    Emits(CommentTexts(msg))
  }

  function CommentTexts(msg: CommentMsg): (lines: seq<string>)
    ensures |lines| == Flag(msg.chat.Some?) + Flag(msg.ping.Some?) + Flag(msg.thread.Some?)
    ensures msg.chat.Some? ==> lines[0] == ChatLine(msg.chat.value)
    ensures msg.ping.Some? ==> lines[Flag(msg.chat.Some?)] == PingLine(msg.ping.value)
    ensures msg.thread.Some? ==> lines[|lines| - 1] == ThreadLine(msg.thread.value)
  {
    var a := if msg.chat.Some? then [ChatLine(msg.chat.value)] else [];
    var b := if msg.ping.Some? then [PingLine(msg.ping.value)] else [];
    var c := if msg.thread.Some? then [ThreadLine(msg.thread.value)] else [];
    Concat3(a, b, c);
    a + b + c
  }

  lemma Concat3(a: seq<string>, b: seq<string>, c: seq<string>)
    requires |a| <= 1 && |b| <= 1 && |c| <= 1
    ensures |a + b + c| == |a| + |b| + |c|
    ensures |a| == 1 ==> (a + b + c)[0] == a[0]
    ensures |b| == 1 ==> (a + b + c)[|a|] == b[0]
    ensures |c| == 1 ==> (a + b + c)[|a + b + c| - 1] == c[0]
  {
  }

  /** Each line printed, in order. */
  function Emits(lines: seq<string>): (effects: seq<Effect>)
    ensures |effects| == |lines| && OnlyLines(effects)
    ensures forall k | 0 <= k < |lines| :: effects[k] == Emit(lines[k])
  {
    seq(|lines|, k requires 0 <= k < |lines| => Emit(lines[k]))
  }

  /** A `thread` result sets the server clock and the tick it arrived at; nothing else changes. */
  function ThreadClock(s: State, thread: Option<Thread>, now: Int32): (r: State)
    ensures thread.Some? ==> r.serverUnixTime == thread.value.serverTime && r.serverUnixTimeTick == Masked(now)
    ensures thread.None? ==> r == s
    ensures r.(serverUnixTime := s.serverUnixTime, serverUnixTimeTick := s.serverUnixTimeTick) == s
  {
    if thread.Some? then s.(serverUnixTime := thread.value.serverTime, serverUnixTimeTick := Masked(now)) else s
  }

  /** A comment-room fragment; there is no receive pending on the comment socket before it is joined. */
  function CommentStep(s: State, frame: Frame, msg: CommentMsg, now: Int32): (o: Outcome)
    ensures NoKeepAlive(o.effects) && NoPost(o.effects) && NoConnect(o.effects) && o.unconsumed == []
    ensures o.next.commentConnected == s.commentConnected
    ensures !s.commentConnected ==> o == Outcome(s, [], [])
    ensures s.commentConnected && frame.isText && s.commentCount + frame.count < MaxPayload && frame.endOfMessage ==>
      o == DispatchComment(s.(commentCount := 0), msg, now)
  {
    if !s.commentConnected then Outcome(s, [], [])
    else if !frame.isText || s.commentCount + frame.count >= MaxPayload then Close(s)
    else if !frame.endOfMessage then Outcome(s.(commentCount := s.commentCount + frame.count), [], [])
    else DispatchComment(s.(commentCount := 0), msg, now)
  }

  // ---------------------------------------------------------------------------
  // One pass of the loop

  function Handle(s: State, ev: Event, now: Int32): Outcome
    requires !ev.Fault?
  {
    match ev
    case Poll(commands) => Drain(s, commands, now)
    case WatchFrame(frame, msg) => WatchStep(s, frame, msg, now)
    case CommentFrame(frame, msg) => CommentStep(s, frame, msg, now)
  }

  /**
   * One pass: nothing happens once the call has ended; a failure (an exception from a socket or
   * the decoder) prints `!`; otherwise the due keep-alive goes out and the event is handled.
   */
  function Step(s: State, now: Int32, ev: Event): Outcome {
    if s.phase != Running then Outcome(s, [], [])
    else if ev.Fault? then Outcome(s.(phase := Failed), [Emit("!")], [])
    else
      var k := KeepAliveStep(s, now);
      var o := Handle(k.next, ev, now);
      Outcome(o.next, k.effects + o.effects, o.unconsumed)
  }

  /** A poll, after the keep-alive check, takes the queued commands. */
  lemma PollStep(s: State, now: Int32, commands: seq<string>)
    ensures s.phase == Running ==>
      var k := KeepAliveStep(s, now);
      var d := Drain(k.next, commands, now);
      Step(s, now, Poll(commands)) == Outcome(d.next, k.effects + d.effects, d.unconsumed)
  {
  }

  /** A failure inside a running session prints `!`, without `.`, and ends the call. */
  lemma FaultFails(s: State, now: Int32)
    ensures s.phase == Running ==> Step(s, now, Fault) == Outcome(s.(phase := Failed), [Emit("!")], [])
    ensures s.phase != Running ==> Step(s, now, Fault) == Outcome(s, [], [])
  {
  }

  datatype Timed = Timed(now: Int32, event: Event)

  /** The final state and all effects of a sequence of passes. */
  function Run(s: State, trace: seq<Timed>): (State, seq<Effect>)
    decreases |trace|
  {
    if |trace| == 0 then (s, [])
    else
      var o := Step(s, trace[0].now, trace[0].event);
      var r := Run(o.next, trace[1..]);
      (r.0, o.effects + r.1)
  }

  // ---------------------------------------------------------------------------
  // Properties of a pass

  /** Once the call has ended, nothing more happens. */
  lemma EndedIsFinal(s: State, now: Int32, ev: Event)
    requires s.phase != Running
    ensures Step(s, now, ev) == Outcome(s, [], [])
  {
  }

  lemma HandleKeepsValid(s: State, ev: Event, now: Int32)
    requires Valid(s) && !ev.Fault?
    ensures Valid(Handle(s, ev, now).next)
  {
  }

  /** Buffers stay below the payload limit, the comment buffer is empty until joined, and the seat interval is capped. */
  lemma StepKeepsValid(s: State, now: Int32, ev: Event)
    requires Valid(s)
    ensures Valid(Step(s, now, ev).next)
  {
    if s.phase == Running && !ev.Fault? {
      HandleKeepsValid(KeepAliveStep(s, now).next, ev, now);
    }
  }

  lemma {:induction false} RunKeepsValid(s: State, trace: seq<Timed>)
    requires Valid(s)
    ensures Valid(Run(s, trace).0)
    decreases |trace|
  {
    if |trace| > 0 {
      StepKeepsValid(s, trace[0].now, trace[0].event);
      RunKeepsValid(Step(s, trace[0].now, trace[0].event).next, trace[1..]);
    }
  }

  lemma HandleSendsNoKeepAlive(s: State, ev: Event, now: Int32)
    requires !ev.Fault?
    ensures NoKeepAlive(Handle(s, ev, now).effects)
  {
    match ev
    case Poll(commands) =>
    case WatchFrame(frame, msg) =>
    case CommentFrame(frame, msg) =>
  }

  function KeepAliveCount(effects: seq<Effect>): nat {
    if |effects| == 0 then 0 else (if IsKeepAlive(effects[0]) then 1 else 0) + KeepAliveCount(effects[1..])
  }

  lemma {:induction false} KeepAliveCountAppend(a: seq<Effect>, b: seq<Effect>)
    ensures KeepAliveCount(a + b) == KeepAliveCount(a) + KeepAliveCount(b)
  {
    if |a| == 0 {
      assert a + b == b;
    } else {
      assert (a + b)[1..] == a[1..] + b;
      KeepAliveCountAppend(a[1..], b);
    }
  }

  lemma {:induction false} KeepAliveCountNone(effects: seq<Effect>)
    requires NoKeepAlive(effects)
    ensures KeepAliveCount(effects) == 0
  {
    if |effects| > 0 {
      KeepAliveCountNone(effects[1..]);
    }
  }

  /** At most one keep-alive goes out per pass. */
  lemma OneKeepAlivePerStep(s: State, now: Int32, ev: Event)
    ensures KeepAliveCount(Step(s, now, ev).effects) <= 1
  {
    if s.phase == Running && !ev.Fault? {
      var k := KeepAliveStep(s, now);
      var o := Handle(k.next, ev, now);
      HandleSendsNoKeepAlive(k.next, ev, now);
      KeepAliveCountNone(o.effects);
      KeepAliveCountAppend(k.effects, o.effects);
      if |k.effects| == 1 {
        assert k.effects[1..] == [];
      }
    } else if s.phase == Running {
      assert [Emit("!")][1..] == [];
    }
  }

  /**
   * The server clock moves only when a comment-room message carrying a `thread` is completed, and
   * such a message, taken by a running and joined session, always sets it.
   */
  lemma ClockSetOnlyByThread(s: State, now: Int32, ev: Event)
    ensures var next := Step(s, now, ev).next;
      next.serverUnixTime != s.serverUnixTime ==>
        && ev.CommentFrame? && ev.frame.endOfMessage && ev.commentMessage.thread.Some?
        && next.serverUnixTime == ev.commentMessage.thread.value.serverTime
        && next.serverUnixTimeTick == Masked(now)
    ensures var next := Step(s, now, ev).next;
      && s.phase == Running && s.commentConnected && ev.CommentFrame?
      && ev.frame.isText && ev.frame.endOfMessage && s.commentCount + ev.frame.count < MaxPayload
      && ev.commentMessage.thread.Some? ==>
        next.serverUnixTime == ev.commentMessage.thread.value.serverTime && next.serverUnixTimeTick == Masked(now)
  {
    if ev.CommentFrame? {
      ThreadSetsClock(s, now, ev.frame, ev.commentMessage);
    }
  }

  /**
   * A frame that is not text, or that would fill the buffer, closes both sockets and ends the call
   * with `.`; a partial fragment is only counted; the fragment that ends a message has the whole
   * message handled, after the keep-alive check, with the count reset.
   */
  lemma WatchFrameBuffer(s: State, now: Int32, frame: Frame, msg: WatchMsg)
    requires s.phase == Running
    ensures var o := Step(s, now, WatchFrame(frame, msg));
      && (!frame.isText || s.watchCount + frame.count >= MaxPayload ==>
            o.next.phase == Closed && o.effects[|o.effects| - 1] == Emit(".") && CloseWatch in o.effects)
      && (frame.isText && s.watchCount + frame.count < MaxPayload && !frame.endOfMessage ==>
            && o.next.watchCount == s.watchCount + frame.count && o.next.phase == Running
            && o.effects == KeepAliveStep(s, now).effects)
      && (frame.isText && s.watchCount + frame.count < MaxPayload && frame.endOfMessage ==>
            && o.next.watchCount == 0 && o.next.phase == Running
            && var k := KeepAliveStep(s, now);
               var d := DispatchWatch(k.next.(watchCount := 0), msg, now);
               o.next == d.next && o.effects == k.effects + d.effects)
  {
    var k := KeepAliveStep(s, now);
    if !frame.isText || s.watchCount + frame.count >= MaxPayload {
      assert Handle(k.next, WatchFrame(frame, msg), now) == Close(k.next);
      ClosingStep(s, now, WatchFrame(frame, msg));
    }
  }

  lemma AppendLast(a: seq<Effect>, b: seq<Effect>)
    requires |b| > 0
    ensures (a + b)[|a + b| - 1] == b[|b| - 1]
    ensures forall x | x in b :: x in a + b
  {
  }

  /** A pass whose event closes the call ends with `.`, having closed the watch socket (and a joined room). */
  lemma ClosingStep(s: State, now: Int32, ev: Event)
    requires s.phase == Running && !ev.Fault?
    requires Handle(KeepAliveStep(s, now).next, ev, now) == Close(KeepAliveStep(s, now).next)
    ensures var o := Step(s, now, ev);
      && o.next.phase == Closed && o.effects[|o.effects| - 1] == Emit(".")
      && CloseWatch in o.effects && (s.commentConnected ==> CloseComment in o.effects)
  {
    var k := KeepAliveStep(s, now);
    var sh := Shutdown(k.next);
    assert Step(s, now, ev).effects == k.effects + sh;
    AppendLast(k.effects, sh);
  }

  /** The same for the comment room, once joined. */
  lemma CommentFrameBuffer(s: State, now: Int32, frame: Frame, msg: CommentMsg)
    requires s.phase == Running && s.commentConnected
    ensures var o := Step(s, now, CommentFrame(frame, msg));
      && (!frame.isText || s.commentCount + frame.count >= MaxPayload ==>
            o.next.phase == Closed && o.effects[|o.effects| - 1] == Emit(".")
            && CloseWatch in o.effects && CloseComment in o.effects)
      && (frame.isText && s.commentCount + frame.count < MaxPayload && !frame.endOfMessage ==>
            && o.next.commentCount == s.commentCount + frame.count && o.next.phase == Running
            && o.effects == KeepAliveStep(s, now).effects)
      && (frame.isText && s.commentCount + frame.count < MaxPayload && frame.endOfMessage ==>
            && o.next.commentCount == 0 && o.next.phase == Running
            && var k := KeepAliveStep(s, now);
               var d := DispatchComment(k.next.(commentCount := 0), msg, now);
               o.next == d.next && o.effects == k.effects + d.effects)
  {
    var k := KeepAliveStep(s, now);
    if !frame.isText || s.commentCount + frame.count >= MaxPayload {
      assert Handle(k.next, CommentFrame(frame, msg), now) == Close(k.next);
      ClosingStep(s, now, CommentFrame(frame, msg));
    }
  }

  /**
   * A completed comment-room message carrying a `thread` sets the server clock to its time and the
   * tick of this pass; a message without one leaves the clock alone.
   */
  lemma ThreadSetsClock(s: State, now: Int32, frame: Frame, msg: CommentMsg)
    ensures var next := Step(s, now, CommentFrame(frame, msg)).next;
      s.phase == Running && s.commentConnected && frame.isText && frame.endOfMessage
      && s.commentCount + frame.count < MaxPayload ==>
        && (msg.thread.Some? ==>
              next.serverUnixTime == msg.thread.value.serverTime && next.serverUnixTimeTick == Masked(now))
        && (msg.thread.None? ==>
              next.serverUnixTime == s.serverUnixTime && next.serverUnixTimeTick == s.serverUnixTimeTick)
  {
    if s.phase == Running && s.commentConnected && frame.isText && frame.endOfMessage
       && s.commentCount + frame.count < MaxPayload {
      CommentFrameBuffer(s, now, frame, msg);
    }
  }

  /** A watch-session message of any other type is read and ignored. */
  lemma OtherMessagesIgnored(s: State, tag: Option<string>, now: Int32)
    ensures DispatchWatch(s, OtherMsg(tag), now) == Outcome(s, [], [])
  {
  }

  /** Once the comment room is joined, a `room` message changes nothing but the buffer count. */
  lemma RoomIgnoredWhenConnected(s: State, room: Option<Room>, now: Int32)
    requires s.commentConnected
    ensures DispatchWatch(s, RoomMsg(room), now) == Outcome(s, [], [])
  {
  }

  /** The opening message: four pings around the thread request, which carries the room's key and the user (or `guest`). */
  lemma HandshakeShape(threadId: string, room: Room, user: Option<User>)
    ensures var items := Handshake(threadId, room, user);
      && |items| == 5
      && items[0] == PingItem("rs: 0") && items[1] == PingItem("ps: 0")
      && items[3] == PingItem("pf: 0") && items[4] == PingItem("rf: 0")
      && items[2].ThreadItem? && items[2].thread == threadId
      && items[2].threadKey == room.yourPostKey
      && items[2].userId == (if user.Some? && user.value.id.Some? then user.value.id.value else "guest")
  {
  }

  /**
   * Before joining, a `room` prints `x_room`; with a thread id and a `wss://` server it also joins
   * that server and sends the opening message.
   */
  lemma RoomJoins(s: State, room: Room, now: Int32)
    requires !s.commentConnected
    ensures var o := DispatchWatch(s, RoomMsg(Some(room)), now);
      && o.effects[0] == Emit(RoomLine(room, s.user))
      && (!Joinable(room) ==> o == Outcome(s, [Emit(RoomLine(room, s.user))], []))
      && (Joinable(room) ==>
            && o.next == s.(commentConnected := true, commentKeepTick := Masked(now))
            && o.effects == [Emit(RoomLine(room, s.user)), ConnectComment(room.messageServer.value.uri.value),
                             ToComment(Open(Handshake(room.threadId.value, room, s.user)))])
  {
    assert DispatchWatch(s, RoomMsg(Some(room)), now) == RoomStep(s, room, now);
  }

  /** A `seat` stores the server's interval capped at 1000 s and restarts the seat clock. */
  lemma SeatClamp(s: State, seat: Seat, now: Int32)
    ensures var o := DispatchWatch(s, SeatMsg(Some(seat)), now);
      && o.next.keepSeatIntervalSec <= MaxSeatIntervalSec
      && (o.next.keepSeatIntervalSec == seat.keepIntervalSec || o.next.keepSeatIntervalSec == MaxSeatIntervalSec)
      && (seat.keepIntervalSec <= MaxSeatIntervalSec ==> o.next.keepSeatIntervalSec == seat.keepIntervalSec)
      && o.next.keepSeatTick == Masked(now)
      && o.effects == []
  {
  }

  /** Error codes map to `chat_result` status 1 and 4; any other error prints nothing. */
  lemma ErrorCodes(s: State, code: string, now: Int32)
    ensures var effects := DispatchWatch(s, ErrorMsg(Some(ErrorData(Some(code)))), now).effects;
      && (code == "INVALID_MESSAGE" ==> effects == [Emit("-<chat_result status=\"" + "1" + "\" />")])
      && (code == "COMMENT_POST_NOT_ALLOWED" ==> effects == [Emit("-<chat_result status=\"" + "4" + "\" />")])
      && (code != "INVALID_MESSAGE" && code != "COMMENT_POST_NOT_ALLOWED" ==> effects == [])
  {
    var error := Some(ErrorData(Some(code)));
    var status := ErrorStatus(error);
    assert DispatchWatch(s, ErrorMsg(error), now).effects
      == if status.Some? then [Emit(ChatResultLine(status.value))] else [];
    ChatResultLiterals014();
  }

  /** A `ping` is answered with `pong`; a `postCommentResult` prints status 0. */
  lemma PingAndPostResult(s: State, now: Int32)
    ensures DispatchWatch(s, PingMsg, now).effects == [ToWatch(Pong)]
    ensures DispatchWatch(s, PostCommentResultMsg, now).effects == [Emit("-<chat_result status=\"" + "0" + "\" />")]
  {
    assert DispatchWatch(s, PostCommentResultMsg, now).effects == [Emit(ChatResultLine(0))];
    ChatResultLiterals014();
  }

  /**
   * A comment-room message prints its chat, ping and thread lines, in that order, skipping the
   * parts it does not carry.
   */
  lemma CommentLines(s: State, msg: CommentMsg, now: Int32)
    ensures var effects := DispatchComment(s, msg, now).effects;
      && (msg.chat.Some? && msg.ping.Some? && msg.thread.Some? ==>
            effects == [Emit(ChatLine(msg.chat.value)), Emit(PingLine(msg.ping.value)), Emit(ThreadLine(msg.thread.value))])
      && (msg.chat.None? && msg.ping.None? && msg.thread.None? ==> effects == [])
      && (msg.chat.Some? && msg.ping.None? && msg.thread.None? ==> effects == [Emit(ChatLine(msg.chat.value))])
      && (msg.chat.None? && msg.ping.Some? && msg.thread.None? ==> effects == [Emit(PingLine(msg.ping.value))])
      && (msg.chat.None? && msg.ping.None? && msg.thread.Some? ==> effects == [Emit(ThreadLine(msg.thread.value))])
  {
    if msg.chat.Some? && msg.ping.Some? && msg.thread.Some? {
      var a, b, c := ChatLine(msg.chat.value), PingLine(msg.ping.value), ThreadLine(msg.thread.value);
      ThreeLines(a, b, c);
    }
  }

  lemma ThreeLines(a: string, b: string, c: string)
    ensures [a] + [b] + [c] == [a, b, c]
    ensures Emits([a, b, c]) == [Emit(a), Emit(b), Emit(c)]
  {
  }

  // ---------------------------------------------------------------------------
  // Properties of a run

  function Connects(effects: seq<Effect>): nat {
    if |effects| == 0 then 0 else (if effects[0].ConnectComment? then 1 else 0) + Connects(effects[1..])
  }

  lemma {:induction false} ConnectsAppend(a: seq<Effect>, b: seq<Effect>)
    ensures Connects(a + b) == Connects(a) + Connects(b)
  {
    if |a| == 0 {
      assert a + b == b;
    } else {
      assert (a + b)[1..] == a[1..] + b;
      ConnectsAppend(a[1..], b);
    }
  }

  lemma {:induction false} ConnectsNone(effects: seq<Effect>)
    requires NoConnect(effects)
    ensures Connects(effects) == 0
  {
    if |effects| > 0 {
      ConnectsNone(effects[1..]);
    }
  }

  function Flag(b: bool): nat {
    if b then 1 else 0
  }

  /** A pass joins the comment room only when not yet joined, and a joined room stays joined. */
  lemma StepConnects(s: State, now: Int32, ev: Event)
    ensures Flag(s.commentConnected) + Connects(Step(s, now, ev).effects) <= Flag(Step(s, now, ev).next.commentConnected)
  {
    var o := Step(s, now, ev);
    if s.phase != Running {
      assert o.effects == [];
    } else if ev.Fault? {
      assert o.effects[1..] == [];
    } else {
      var k := KeepAliveStep(s, now);
      var h := Handle(k.next, ev, now);
      assert NoConnect(k.effects);
      ConnectsNone(k.effects);
      ConnectsAppend(k.effects, h.effects);
      HandleConnects(k.next, ev, now);
    }
  }

  lemma RoomStepConnects(s: State, room: Room, now: Int32)
    requires !s.commentConnected
    ensures Connects(RoomStep(s, room, now).effects) <= Flag(RoomStep(s, room, now).next.commentConnected)
  {
    var e := RoomStep(s, room, now).effects;
    if CommentServer(room).Some? {
      assert e[1..][1..][1..] == [];
      assert Connects(e[1..][1..]) == 0;
      assert Connects(e[1..]) == 1;
    } else {
      assert e[1..] == [];
    }
  }

  lemma WatchStepConnects(s: State, frame: Frame, msg: WatchMsg, now: Int32)
    ensures Flag(s.commentConnected) + Connects(WatchStep(s, frame, msg, now).effects)
      <= Flag(WatchStep(s, frame, msg, now).next.commentConnected)
  {
    var o := WatchStep(s, frame, msg, now);
    if !frame.isText || s.watchCount + frame.count >= MaxPayload || !frame.endOfMessage {
      ConnectsNone(o.effects);
    } else if msg.RoomMsg? && !s.commentConnected && msg.room.Some? {
      RoomStepConnects(s.(watchCount := 0), msg.room.value, now);
    } else {
      ConnectsNone(o.effects);
    }
  }

  lemma HandleConnects(s: State, ev: Event, now: Int32)
    requires !ev.Fault?
    ensures Flag(s.commentConnected) + Connects(Handle(s, ev, now).effects) <= Flag(Handle(s, ev, now).next.commentConnected)
  {
    match ev
    case Poll(commands) =>
      ConnectsNone(Drain(s, commands, now).effects);
    case WatchFrame(frame, msg) =>
      WatchStepConnects(s, frame, msg, now);
    case CommentFrame(frame, msg) =>
      ConnectsNone(CommentStep(s, frame, msg, now).effects);
  }

  /** Over any run, the comment room is joined at most once. */
  lemma {:induction false} ConnectAtMostOnce(s: State, trace: seq<Timed>)
    ensures Flag(s.commentConnected) + Connects(Run(s, trace).1) <= Flag(Run(s, trace).0.commentConnected)
    ensures Connects(Run(s, trace).1) <= 1
    decreases |trace|
  {
    if |trace| > 0 {
      var o := Step(s, trace[0].now, trace[0].event);
      StepConnects(s, trace[0].now, trace[0].event);
      ConnectAtMostOnce(o.next, trace[1..]);
      ConnectsAppend(o.effects, Run(o.next, trace[1..]).1);
    }
  }

  /** No event of the trace completes a comment-room message that carries a `thread`. */
  predicate NoThread(trace: seq<Timed>) {
    forall k | 0 <= k < |trace| ::
      !(trace[k].event.CommentFrame? && trace[k].event.frame.endOfMessage && trace[k].event.commentMessage.thread.Some?)
  }

  lemma HandlePostsNeedClock(s: State, ev: Event, now: Int32)
    requires s.serverUnixTime <= 0 && !ev.Fault?
    ensures NoPost(Handle(s, ev, now).effects)
  {
    match ev
    case Poll(commands) =>
    case WatchFrame(frame, msg) =>
    case CommentFrame(frame, msg) =>
  }

  lemma StepPostsNeedClock(s: State, now: Int32, ev: Event)
    requires s.serverUnixTime <= 0
    ensures NoPost(Step(s, now, ev).effects)
  {
    if s.phase == Running && !ev.Fault? {
      var k := KeepAliveStep(s, now);
      HandlePostsNeedClock(k.next, ev, now);
      var h := Handle(k.next, ev, now);
      assert NoPost(k.effects);
      assert Step(s, now, ev).effects == k.effects + h.effects;
    }
  }

  /**
   * The server clock starts at 0 and only a `thread` moves it, so until the comment room has sent
   * one, every post the host makes is refused and nothing is sent to the watch session.
   */
  lemma {:induction false} NoPostBeforeThread(s: State, trace: seq<Timed>)
    requires s.serverUnixTime <= 0 && NoThread(trace)
    ensures NoPost(Run(s, trace).1)
    ensures Run(s, trace).0.serverUnixTime == s.serverUnixTime
    decreases |trace|
  {
    if |trace| > 0 {
      var o := Step(s, trace[0].now, trace[0].event);
      StepPostsNeedClock(s, trace[0].now, trace[0].event);
      if o.next.serverUnixTime != s.serverUnixTime {
        ClockSetOnlyByThread(s, trace[0].now, trace[0].event);
        assert false;
      }
      assert NoThread(trace[1..]);
      NoPostBeforeThread(o.next, trace[1..]);
      var rest := Run(o.next, trace[1..]).1;
      assert Run(s, trace).1 == o.effects + rest;
    }
  }

  /** A fresh session is valid and has not joined the comment room. */
  lemma InitValid(e: Embedded)
    ensures Valid(Init(e)) && !Init(e).commentConnected && Init(e).serverUnixTime == 0
    ensures Init(e).vposBaseTime == e.vposBaseTime && Init(e).user == e.user
  {
  }
}

=== FILE: strings.dfy ===
/** The few .NET string operations the bridge relies on, as pure functions on `seq<char>`. */
module Strings {
  import opened Wrappers

  /** `s.Replace(c, rep)` for a one-character pattern: every occurrence of `c`, left to right. */
  function ReplaceChar(s: string, c: char, rep: string): (r: string)
    ensures c !in rep ==> c !in r
    ensures forall x | x in r :: x in rep || (x in s && x != c)
  {
    if |s| == 0 then "" else (if s[0] == c then rep else [s[0]]) + ReplaceChar(s[1..], c, rep)
  }

  // ---------------------------------------------------------------------------
  // Concatenation, stated once for abstract pieces

  lemma DropPrefix(x: string, y: string)
    ensures (x + y)[|x|..] == y
  {
  }

  lemma Associate(a: string, b: string, c: string)
    ensures (a + b) + c == a + (b + c)
  {
  }

  lemma Reassociate(a: string, b: string, c: string, d: string)
    ensures a + b + c + d == a + (b + (c + d))
  {
  }

  lemma SliceSplit(s: string, i: nat, j: nat, k: nat)
    requires i <= j <= k <= |s|
    ensures s[i..k] == s[i..j] + s[j..k]
  {
  }

  lemma AppendEmpty(a: string)
    ensures a + "" == a
  {
  }

  /** Replacing distributes over concatenation. */
  lemma {:induction false} ReplaceAppend(a: string, b: string, c: char, rep: string)
    ensures ReplaceChar(a + b, c, rep) == ReplaceChar(a, c, rep) + ReplaceChar(b, c, rep)
  {
    if |a| == 0 {
      assert a + b == b;
    } else {
      assert (a + b)[1..] == a[1..] + b;
      ReplaceAppend(a[1..], b, c, rep);
    }
  }

  lemma ReplaceSingle(x: char, c: char, rep: string)
    ensures ReplaceChar([x], c, rep) == if x == c then rep else [x]
  {
    assert [x][1..] == "";
  }

  /** Replacing a character that does not occur changes nothing. */
  lemma {:induction false} ReplaceAbsent(s: string, c: char, rep: string)
    requires c !in s
    ensures ReplaceChar(s, c, rep) == s
  {
    if |s| > 0 {
      assert c !in s[1..];
      ReplaceAbsent(s[1..], c, rep);
    }
  }

  /** `s.Replace(c, d)` for two characters: same length, each `c` becomes `d`, everything else stays. */
  lemma {:induction false} ReplaceCharByChar(s: string, c: char, d: char)
    ensures |ReplaceChar(s, c, [d])| == |s|
    ensures forall i | 0 <= i < |s| :: ReplaceChar(s, c, [d])[i] == if s[i] == c then d else s[i]
  {
    if |s| > 0 {
      ReplaceCharByChar(s[1..], c, d);
    }
  }

  /** `s.IndexOf(c)`, with `|s|` standing for "not found". */
  function IndexOf(s: string, c: char): (i: nat)
    ensures i <= |s|
    ensures i < |s| ==> s[i] == c
    ensures c !in s[..i]
  {
    if |s| == 0 then 0
    else if s[0] == c then 0
    else
      assert s[..1 + IndexOf(s[1..], c)] == [s[0]] + s[1..][..IndexOf(s[1..], c)];
      1 + IndexOf(s[1..], c)
  }

  /** The first occurrence of `c` is the only position before which `c` does not occur. */
  lemma IndexOfUnique(s: string, c: char, j: nat)
    requires j <= |s| && c !in s[..j]
    requires j < |s| ==> s[j] == c
    ensures IndexOf(s, c) == j
  {
  }

  /** `s.Split(new[] { c }, 2)`: the text before the first `c` and the rest, or `s` alone. */
  function SplitFirst(s: string, c: char): (parts: seq<string>)
    ensures |parts| == 2 <==> c in s
    ensures |parts| == 1 || |parts| == 2
    ensures c !in parts[0]
    ensures |parts| == 1 ==> parts[0] == s
    ensures |parts| == 2 ==> s == parts[0] + [c] + parts[1]
  {
    var i := IndexOf(s, c);
    if i == |s| then
      assert s[..i] == s;
      [s]
    else
      assert s == s[..i] + [c] + s[i + 1..];
      [s[..i], s[i + 1..]]
  }

  /** `s.Split(c)` without options: every piece, empty ones included. */
  function SplitAll(s: string, c: char): (parts: seq<string>)
    ensures |parts| >= 1
    ensures forall k | 0 <= k < |parts| :: c !in parts[k]
    decreases |s|
  {
    var i := IndexOf(s, c);
    if i == |s| then
      assert s[..i] == s;
      [s]
    else
      [s[..i]] + SplitAll(s[i + 1..], c)
  }

  /** A character absent from the text is absent from every piece. */
  lemma {:induction false} SplitAllAbsent(s: string, c: char, x: char)
    requires x !in s
    ensures forall k | 0 <= k < |SplitAll(s, c)| :: x !in SplitAll(s, c)[k]
    decreases |s|
  {
    var i := IndexOf(s, c);
    if i < |s| {
      assert x !in s[..i];
      assert x !in s[i + 1..];
      SplitAllAbsent(s[i + 1..], c, x);
      assert SplitAll(s, c) == [s[..i]] + SplitAll(s[i + 1..], c);
    } else {
      assert s[..i] == s;
    }
  }

  /** `string.Join(c, parts)`. */
  function Join(parts: seq<string>, c: char): string
    requires |parts| >= 1
  {
    if |parts| == 1 then parts[0] else parts[0] + [c] + Join(parts[1..], c)
  }

  /** Splitting and joining again gives back the text. */
  lemma {:induction false} JoinSplitAll(s: string, c: char)
    ensures Join(SplitAll(s, c), c) == s
    decreases |s|
  {
    var i := IndexOf(s, c);
    if i == |s| {
      assert s[..i] == s;
    } else {
      var rest := SplitAll(s[i + 1..], c);
      var parts := SplitAll(s, c);
      assert parts == [s[..i]] + rest;
      assert parts[1..] == rest;
      assert Join(parts, c) == s[..i] + [c] + Join(rest, c);
      JoinSplitAll(s[i + 1..], c);
      assert s == s[..i] + [c] + s[i + 1..];
    }
  }

  // ---------------------------------------------------------------------------
  // Decimal integers, as `long.ToString()` writes them and as a reader parses them.

  predicate IsDigit(ch: char) {
    '0' <= ch <= '9'
  }

  predicate AllDigits(s: string) {
    forall i | 0 <= i < |s| :: IsDigit(s[i])
  }

  function DigitChar(d: nat): (ch: char)
    requires d < 10
    ensures IsDigit(ch)
  {
    (d + '0' as int) as char
  }

  function DigitValue(ch: char): (d: nat)
    requires IsDigit(ch)
    ensures d < 10
  {
    ch as int - '0' as int
  }

  function NatToString(n: nat): (r: string)
    ensures |r| >= 1 && AllDigits(r)
    decreases n
  {
    if n < 10 then [DigitChar(n)] else NatToString(n / 10) + [DigitChar(n % 10)]
  }

  /** `long.ToString()`: an optional minus sign, then the decimal digits. */
  function IntToString(n: int): string {
    if n < 0 then "-" + NatToString(-n) else NatToString(n)
  }

  function ParseNat(s: string): nat
    requires AllDigits(s)
    decreases |s|
  {
    if |s| == 0 then 0 else ParseNat(s[..|s| - 1]) * 10 + DigitValue(s[|s| - 1])
  }

  /** Reads an optionally signed, non-empty decimal numeral; anything else is `None`. */
  function ParseInt(s: string): Option<int> {
    if |s| >= 2 && s[0] == '-' && AllDigits(s[1..]) then
      var magnitude: int := ParseNat(s[1..]);
      Some(-magnitude)
    else if |s| >= 1 && AllDigits(s) then Some(ParseNat(s))
    else None
  }

  lemma {:induction false} ParseNatToString(n: nat)
    ensures ParseNat(NatToString(n)) == n
    decreases n
  {
    if n >= 10 {
      var r := NatToString(n);
      assert r[..|r| - 1] == NatToString(n / 10);
      ParseNatToString(n / 10);
    }
  }

  /** Decimal rendering and parsing are inverse. */
  lemma ParseIntToString(n: int)
    ensures ParseInt(IntToString(n)) == Some(n)
  {
    if n < 0 {
      var d := NatToString(-n);
      DropPrefix("-", d);
      assert ("-" + d)[0] == '-';
      ParseNatToString(-n);
    } else {
      var d := NatToString(n);
      assert IsDigit(d[0]);
      ParseNatToString(n);
    }
  }

  /** A rendered number consists of digits and possibly a leading minus sign only. */
  lemma IntToStringChars(n: int)
    ensures forall i | 0 <= i < |IntToString(n)| :: IsDigit(IntToString(n)[i]) || IntToString(n)[i] == '-'
  {
    if n < 0 {
      var r := IntToString(n);
      assert forall i | 1 <= i < |r| :: r[i] == NatToString(-n)[i - 1];
    }
  }
}

=== FILE: validate.dfy ===
/**
 * The two guards the stream handler applies before it connects anywhere: the broadcast id must
 * look like `ch123` or `lv123`, and the WebSocket URL scraped from the watch page must point at a
 * `wss://` host under `.nicovideo.jp`. Each regular expression is modelled in the form the .NET
 * matcher gives it, and proved equivalent to a plain description.
 */
module Validate {
  import opened Wrappers
  import opened Strings
  import opened Messages

  // ---------------------------------------------------------------------------
  // `^(?:ch|lv)[0-9]+$`

  predicate IdPrefix(s: string)
    requires |s| >= 2
  {
    s[..2] == "ch" || s[..2] == "lv"
  }

  /**
   * The pattern as .NET matches it: the prefix, one or more ASCII digits ending at `k`, and then
   * the end of the text, or a single line feed that is the last character (where .NET's `$` also
   * matches).
   */
  predicate MatchesIdPattern(s: string) {
    exists k | 3 <= k <= |s| ::
      IdPrefix(s) && AllDigits(s[2..k]) && (k == |s| || (k == |s| - 1 && s[k] == '\n'))
  }

  /** The id test written out: prefix, digits to the end, with one final line feed tolerated. */
  predicate IsBroadcastId(s: string) {
    && |s| >= 3
    && IdPrefix(s)
    && (AllDigits(s[2..]) || (|s| >= 4 && s[|s| - 1] == '\n' && AllDigits(s[2..|s| - 1])))
  }

  lemma BroadcastIdPattern(s: string)
    ensures MatchesIdPattern(s) <==> IsBroadcastId(s)
  {
    if IsBroadcastId(s) {
      if AllDigits(s[2..]) {
        assert s[2..|s|] == s[2..];
        assert IdPrefix(s) && AllDigits(s[2..|s|]);
      } else {
        var k := |s| - 1;
        assert IdPrefix(s) && AllDigits(s[2..k]) && k == |s| - 1 && s[k] == '\n';
      }
    }
    if MatchesIdPattern(s) {
      var k :| 3 <= k <= |s| && IdPrefix(s) && AllDigits(s[2..k]) && (k == |s| || (k == |s| - 1 && s[k] == '\n'));
      if k == |s| {
        assert s[2..] == s[2..k];
      }
    }
  }

  /** An id taken from an input line, which never holds a line feed: `ch` or `lv` and at least one digit. */
  lemma BroadcastIdFromLine(s: string)
    requires '\n' !in s
    ensures IsBroadcastId(s) <==> |s| >= 3 && (s[..2] == "ch" || s[..2] == "lv") && AllDigits(s[2..])
  {
    if |s| >= 4 {
      assert s[|s| - 1] in s;
    }
  }

  // ---------------------------------------------------------------------------
  // `^wss://[0-9A-Za-z.-]+\.nicovideo\.jp/`

  predicate IsHostChar(ch: char) {
    ('0' <= ch <= '9') || ('A' <= ch <= 'Z') || ('a' <= ch <= 'z') || ch == '.' || ch == '-'
  }

  predicate AllHostChars(s: string) {
    forall i | 0 <= i < |s| :: IsHostChar(s[i])
  }

  const Scheme: string := "wss://"
  const ServiceDomain: string := ".nicovideo.jp"

  /**
   * The pattern as a backtracking matcher accepts it: after the scheme, a non-empty run of host
   * characters ending at `k`, followed by the domain and a slash. Nothing is required after it.
   */
  predicate MatchesSocketPattern(url: string) {
    exists k | 7 <= k <= |url| ::
      Scheme <= url && AllHostChars(url[6..k]) && ServiceDomain + "/" <= url[k..]
  }

  /** The text between the scheme and the first slash after it, if there is such a slash. */
  function HostOf(url: string): (host: Option<string>)
    requires Scheme <= url
    ensures host.Some? ==> 6 + |host.value| < |url| && url[6 + |host.value|] == '/'
    ensures host.Some? ==> '/' !in host.value && url[6..6 + |host.value|] == host.value
  {
    var i := IndexOf(url[6..], '/');
    if i == |url[6..]| then None
    else
      assert url[6..][..i] == url[6..6 + i];
      Some(url[6..6 + i])
  }

  /**
   * The URL test written out: `wss://`, then a host of letters, digits, dots and hyphens up to
   * the first slash, which ends in `.nicovideo.jp` with at least one character before it.
   */
  predicate IsServiceSocketUrl(url: string) {
    && Scheme <= url
    && HostOf(url).Some?
    && AllHostChars(HostOf(url).value)
    && |HostOf(url).value| > |ServiceDomain|
    && HostOf(url).value[|HostOf(url).value| - |ServiceDomain|..] == ServiceDomain
  }

  lemma SocketUrlPattern(url: string)
    ensures MatchesSocketPattern(url) <==> IsServiceSocketUrl(url)
  {
    if MatchesSocketPattern(url) {
      PatternGivesHost(url);
    }
    if IsServiceSocketUrl(url) {
      HostGivesPattern(url);
    }
  }

  /** A match ending its host run at `k` has its first slash right after the domain. */
  lemma MatchHost(url: string, k: nat)
    requires 7 <= k <= |url| && Scheme <= url && AllHostChars(url[6..k]) && ServiceDomain + "/" <= url[k..]
    ensures HostOf(url) == Some(url[6..k + |ServiceDomain|])
  {
    var end := k + |ServiceDomain|;
    assert url[end] == '/';
    assert '/' !in url[6..end] by {
      forall i | 6 <= i < end
        ensures url[i] != '/'
      {
        if i < k {
          assert IsHostChar(url[6..k][i - 6]);
        } else {
          assert url[i] == (ServiceDomain + "/")[i - k];
        }
      }
    }
    assert url[6..][..end - 6] == url[6..end];
    IndexOfUnique(url[6..], '/', end - 6);
  }

  lemma PatternGivesHost(url: string)
    requires MatchesSocketPattern(url)
    ensures IsServiceSocketUrl(url)
  {
    var k :| 7 <= k <= |url| && Scheme <= url && AllHostChars(url[6..k]) && ServiceDomain + "/" <= url[k..];
    MatchHost(url, k);
    var end := k + |ServiceDomain|;
    SliceSplit(url, 6, k, end);
    DomainAt(url, k);
    DomainIsHostChars();
    HostCharsAppend(url[6..k], ServiceDomain);
    DropPrefix(url[6..k], ServiceDomain);
  }

  /** The domain and slash the pattern requires at `k`: the domain occupies the next characters. */
  lemma DomainAt(url: string, k: nat)
    requires k <= |url| && ServiceDomain + "/" <= url[k..]
    ensures k + |ServiceDomain| < |url| && url[k..k + |ServiceDomain|] == ServiceDomain
  {
    assert url[k..][..|ServiceDomain|] == (ServiceDomain + "/")[..|ServiceDomain|];
  }

  lemma DomainIsHostChars()
    ensures AllHostChars(ServiceDomain)
  {
  }

  lemma HostCharsAppend(a: string, b: string)
    requires AllHostChars(a) && AllHostChars(b)
    ensures AllHostChars(a + b)
  {
    forall i | 0 <= i < |a + b|
      ensures IsHostChar((a + b)[i])
    {
      if i < |a| {
        assert (a + b)[i] == a[i];
      } else {
        assert (a + b)[i] == b[i - |a|];
      }
    }
  }

  lemma HostGivesPattern(url: string)
    requires IsServiceSocketUrl(url)
    ensures MatchesSocketPattern(url)
  {
    {
      var host := HostOf(url).value;
      var k := 6 + |host| - |ServiceDomain|;
      assert url[6..k] == host[..|host| - |ServiceDomain|];
      assert url[k..k + |ServiceDomain|] == ServiceDomain;
      assert url[k + |ServiceDomain|] == '/';
      assert url[k..][..|ServiceDomain| + 1] == ServiceDomain + "/";
      assert AllHostChars(url[6..k]);
    }
  }

  /** The handler keeps the page's session descriptor only when it names an acceptable socket URL. */
  predicate EmbeddedAccepted(e: Embedded) {
    && e.site.Some?
    && e.site.value.relive.Some?
    && MatchesSocketPattern(e.site.value.relive.value.webSocketUrl.GetOr(""))
  }

  /** The URL the watch socket connects to, for an accepted descriptor. */
  function SocketUrl(e: Embedded): (url: string)
    requires EmbeddedAccepted(e)
    ensures IsServiceSocketUrl(url)
  {
    SocketUrlPattern(e.site.value.relive.value.webSocketUrl.GetOr(""));
    e.site.value.relive.value.webSocketUrl.value
  }
}

=== FILE: wrappers.dfy ===
/** Optional values: the model's stand-in for the nullable references of the source. */
module Wrappers {

  datatype Option<+T> = None | Some(value: T) {

    /** The encapsulated value, or `default` when there is none (C#'s `x ?? default`). */
    function GetOr(default: T): T {
      match this
      case Some(v) => v
      case None => default
    }
  }
}
